=== FILE: README.md ===
# Panalyzer core in Dafny

Panalyzer is a logic analyzer for the Raspberry Pi. A kernel driver samples
the GPIO levels against the free-running 1 MHz system timer. It keeps the
samples in a ring buffer, waiting for a cascade of up to four trigger
stages. It exposes a header (`panctl_t`) plus the buffer as one character
device file. The GTK viewer writes a header to the device, reads the capture
back, and run-length encodes it into level-change records for drawing. Its
trigger dialog translates the header's trigger table to and from rows of
check boxes, entries and level buttons.

This project models that core as pure functions over immutable data and
proves what the code promises:

- `Layout` (panalyzer.h): the constants, the `panctl_t` record, its 23
  words and its little-endian 92-byte image, and the viewer's channel mask.
- `Ring`: the sample buffer with its write cursor, and the chronological
  reading that starts at `first_data_index`.
- `Capture`: `capture()` in pandriver.c.
  - The hardware becomes a finite stream of (tick, sample) reads.
  - A read whose tick equals the last accepted tick is the busy-wait.
  - Each other read is one pass of the loop: pre-trigger fill, the trigger
    stages, the abort check and the post-trigger countdown.
- `Device`: `dev_open`, `dev_close`, `dev_llseek`, `dev_read` (which runs
  the capture on the first read after a close) and `dev_write`, over the
  driver's globals.
- `Encoder`: the channel mask and the transition encoder of `do_run`, with
  the run-length expansion as its inverse.
- `Viewer`: `prepopulate_data` and the part of `do_run` that handles a
  capture file, connected to the device model.
- `Dialog`: the level buttons, the enable boxes, the min-samples entry and
  its two handlers, and the translation between header stages and dialog
  rows when the dialog opens and when it is closed with OK.
- `Arith`: division facts the solver needs.

Counters, ticks and header fields are `uint32` integers, and C's 32-bit
wrap-around is written out (`Wrap`). Storing a `uint32` in an `int` is
written out as two's complement (`ToInt32`). Masks, samples and channel
bits are tested as `bv32` patterns (`Trigger.MaskBits`, `Bit`). The capture
loop reads each stage's mask and value as such patterns (`Capture.Stage`).

The dialog labels `min_samples` only "Samples" (Panalyzer.c:930), so the
field evidently means how many samples a stage's condition must hold for.
The model follows the code, which differs slightly. The last stage's dwell
counter reaches 0 on the `min_samples`-th matching sample. The trigger then
arms on the NEXT accepted sample, whatever that sample reads
(`Capture.LastStageArms`).

The device's read and write are modelled as the driver computes them: a
transfer inside the header always runs to the end of the header, whatever
the caller's `count` (see "## Findings"). `Device.ServeCorrected` and
`Device.WriteCorrected` are the transfers bounded by `count`.

The dialog's entry text is what GTK hands the handlers: the UTF-8 bytes of
the shown text, one `char` per byte (`Dialog.Utf8`).

## Model

| member | source | states |
|---|---|---|
| Layout.DefaultHeader | panalyzer.h:44-57 | The default header has the magic number and version, 10000 samples, trigger point 0 and four zero stages. Its channel mask equals the viewer's mask over the default channels 4, 17, 18 and 21. Those channels fit the eight dialog columns, are valid shift amounts and are all different. |
| Layout.HeaderSize | panalyzer.h:26-40 | `panctl_t` is 23 words, 92 bytes. |
| Layout.ChannelMaskBits | Panalyzer.c:759-762 | Bit `b` of the OR of `1 << c` over a channel list is set exactly when `b` is in the list. |
| Layout.HeaderWordsRoundTrip | panalyzer.h:26-40 | A header written out as its 23 words reads back as the same header. Every 23-word block reads as a header that writes back to the same words. |
| Layout.TriggerWordsRoundTrip | panalyzer.h:34-39 | Trigger entries laid out as 4 words each parse back to the same entries. |
| Layout.ParseTriggersRoundTrip | panalyzer.h:34-39 | A block of words whose length is a multiple of 4 parses to entries that lay out to the same words. |
| Layout.WordBytesInverse | panalyzer.h:26-40 | Words laid out as little-endian bytes read back as the same words. |
| Layout.BytesWordsInverse | panalyzer.h:26-40 | A byte block whose length is a multiple of 4 reads as words that lay out to the same bytes. |
| Layout.HeaderImageRoundTrip | pandriver.c:232-237 | The 92-byte image the driver serves for a header parses back to that header. |
| Layout.ParseImageRoundTrip | pandriver.c:270-271 | Any 92 bytes copied over the header are exactly the image of the header they parse to, so the device stores whatever is written. |
| Ring.Fresh | pandriver.c:217-223 | A new buffer holds `num_samples` words with the cursor at the start. |
| Ring.Write | pandriver.c:120-122 | Storing a sample writes the cursor's slot and no other slot. The cursor advances by one, wrapping at the end. |
| Ring.Linearize | pandriver.c:239-255 | The chronological reading is the slots from `first_data_index` to the end, then the slots from 0. |
| Ring.WriteSlides | pandriver.c:120-122 | After a write the ring holds the previous window minus its oldest sample, plus the new one. |
| Ring.FillSlides | pandriver.c:115-122 | After writing a sequence, the ring holds the last `n` of its old contents followed by the sequence. |
| Ring.FillCursor | pandriver.c:120-122 | After writing `h` samples the cursor has moved `h` slots, modulo `n`. |
| Ring.FillFresh | pandriver.c:218-223 | Writing into a cleared buffer leaves the cursor at `h mod n`. The reading is zero padding followed by every sample when fewer than `n` were written, and exactly the last `n` samples otherwise. |
| Capture.ToInt32 | pandriver.c:89 | A `uint32` stored in an `int` is in the signed 32-bit range. It is non-negative exactly when below 2^31, and storing it back gives the original. |
| Capture.EnabledUpTo | pandriver.c:92-93 | The scan stops at the first disabled stage at or after `k`, or at 4. Every stage it passes is enabled. |
| Capture.LastState | pandriver.c:92-95 | `last_state` is one less than the length of the enabled prefix. It is -1 exactly when stage 0 is disabled. |
| Capture.TriggerPointSplit | pandriver.c:97-103 | While `num_samples * 19` does not wrap, trigger point 0 keeps 19/20 of the buffer after the trigger, 1 keeps half and anything else keeps 1/20. The rest is pre-trigger history. |
| Capture.SplitSum | pandriver.c:97-103 | For every buffer size below 2^31 and every trigger point, even once `num_samples * 19` wraps, the post-trigger count lies between 0 and `n` and the pre-trigger count is the rest of the buffer. |
| Capture.TriggerPointWraps | pandriver.c:98 | With 2^28 samples the 32-bit product wraps, and trigger point 0 keeps fewer than a sixth of the buffer. |
| Capture.TriggerPointExample | pandriver.c:97-103 | 100 samples split 5/95, 50/50 and 95/5 for trigger points 0, 1 and 2. |
| Capture.Begin | pandriver.c:82-114 | The loop starts on a cleared ring at the start tick with no overruns. It is matching stage 0, or armed when stage 0 is disabled. |
| Capture.DecrementIsZero | pandriver.c:142 | `min_samples - 1` stored in an `int` is 0 exactly when `min_samples` is 1. |
| Capture.RecheckStays | pandriver.c:134-151 | While the dwell is nonzero, a sample matching the current stage counts it down by one, and any other sample restarts stage 0 with its full dwell. At dwell 0, a sample that does not match the next stage stays at the current stage with dwell 0 if it matches that stage, and restarts stage 0 otherwise. A sample that matches the next stage arms or moves to a later stage, never restarting. A later stage is reached only from dwell 0, with the dwell the cascade leaves. |
| Capture.RecheckNext | pandriver.c:136-143 | A sample that advances is handed to the next stage, which starts with `min_samples - 1` and is checked again against the same sample. |
| Capture.RecheckMoves | pandriver.c:136-151 | A sample leaves for a later stage only when the dwell is 0 and the sample matches the next stage. Advancing never restarts stage 0, and a dwell of 0 at the last stage arms. |
| Capture.RecheckPasses | pandriver.c:136-143 | Each stage a cascade enters matches the sample. Each stage it passes through, rather than stops at, has `min_samples` 1. |
| Capture.RecheckCascade | pandriver.c:136-143 | When a sample moves the chain to a later stage, every stage from the next one up to that stage matches the sample. Every stage strictly between has `min_samples` 1. |
| Capture.RecheckCascadeStops | pandriver.c:136-151 | The cascade stops at a stage whose `min_samples` is not 1, or whose next stage the sample misses. It never stops one stage early. |
| Capture.StopsHere | pandriver.c:136-151 | A stage entered by the cascade that keeps the sample has `min_samples` other than 1, or is followed by a stage the sample misses. |
| Capture.CascadeExample | pandriver.c:136-151 | With stages 0 to 2 matching every sample and holding for 1, 1 and 5 samples, a sample at stage 0 with dwell 0 ends at stage 2 with dwell 3. |
| Capture.RecheckArms | pandriver.c:134-144 | A sample arms exactly when the current dwell is 0 and the sample matches every later stage, each of which has `min_samples` 1. |
| Capture.Step | pandriver.c:116-152 | One pass stores the sample, takes the new tick and adds the ticks missed since the last one to `overruns`, modulo 2^32. It aborts exactly at the abort tick while still matching after the pre-trigger fill. It completes exactly when armed with at most one post-trigger sample left. The pre-trigger count is consumed first, and the post-trigger count only while armed. Past the fill, a matching pass that is not at the abort tick takes its phase and dwell from the stage logic. |
| Capture.Loop | pandriver.c:115-153 | The loop never consumes more reads than offered and keeps the buffer size. It ends `Running` only after using up the stream. |
| Capture.LoopFillsRing | pandriver.c:115-122 | After the loop, the ring is the start ring with every accepted sample written in order. |
| Capture.LoopCountsOverruns | pandriver.c:116-119 | `overruns` grows by the ticks elapsed minus the samples accepted, modulo 2^32. |
| Capture.OverrunExample | pandriver.c:118 | Three ticks after the last accepted one, two ticks were missed. |
| Capture.LoopEnds | pandriver.c:123-132 | The loop aborts only at the abort tick while a stage is still being matched. It completes only once armed. |
| Capture.CompletionNeedsSamples | pandriver.c:123-127 | A completed capture accepted at least the remaining pre-trigger samples plus one post-trigger sample. |
| Capture.ArmedCapture | pandriver.c:123-127 | An armed capture never aborts. It completes exactly when the stream offers the owed samples, and then it has taken exactly that many. |
| Capture.UntriggeredCapture | pandriver.c:92-127 | With stage 0 disabled, `n` samples (any `n` below 2^31) complete after exactly `n` accepted samples. It is `n + 1` when the post-trigger count is 0. |
| Capture.CompletedCaptureWindow | pandriver.c:115-156 | For any buffer size below 2^31: after a capture from a fresh buffer, `first_data_index` is the number of accepted samples modulo `n`. A completed capture's chronological buffer is exactly the last `n` accepted samples. |
| Capture.FeedAppend | pandriver.c:134-151 | Running the stage logic over `a` and then `b` is running it over `a + b`. |
| Capture.DwellCountsDown | pandriver.c:136-147 | At the last stage, each matching sample lowers the dwell by one. |
| Capture.LastStageArms | pandriver.c:136-139 | The last stage entered with dwell `d` stays unarmed through `d` matching samples. It arms on the next sample, whether or not that sample matches. |
| Capture.ArmedStays | pandriver.c:123-127 | Once armed, the loop stays armed. |
| Capture.LoopFeeds | pandriver.c:115-151 | Past the pre-trigger fill and away from the abort tick, the loop never aborts. It ends armed exactly when the stage logic, run over the accepted samples, arms. Otherwise it is still running at the stage and dwell that logic reaches. |
| Capture.RecheckStuck | pandriver.c:140-147 | When a later stage has `min_samples` 0, entering it leaves a negative dwell that only decreases, so the stage logic never gets past that stage. |
| Capture.FeedStuck | pandriver.c:140-151 | With such a stage, no sample sequence arms the trigger. |
| Capture.StuckCaptureNeverCompletes | pandriver.c:115-153 | With such a stage, a capture that is still matching never completes: it ends by abort or not at all. |
| Device.FileSizeFits | pandriver.c:230 | When the size fits in 32 bits, the file is 92 header bytes plus 4 bytes per sample. |
| Device.FileImage | pandriver.c:230-260 | The file is the header image followed by the samples oldest first, `92 + 4n` bytes. |
| Device.Open | pandriver.c:201-208 | Opening resets the header to the defaults and keeps the buffer and `first_data_index`. |
| Device.Close | pandriver.c:290-297 | Closing frees the buffer and changes nothing else. |
| Device.Llseek | pandriver.c:280-288 | A seek succeeds exactly for `SEEK_SET` to an offset inside the file, and then the position is that offset. Anything else is `EINVAL` with the position unchanged. |
| Device.HeaderSpanAsWritten | pandriver.c:233 | A header transfer always runs to the end of the header and moves at least one byte. |
| Device.HeaderSpan | pandriver.c:232-237 | Corrected: a header transfer never exceeds `count` and stops at the end of the header. It equals the driver's span whenever the caller asked for at least the rest of the header. |
| Device.DataWindow | pandriver.c:239-255 | A data read starts at byte `4*first_data_index + index` of the physical buffer, less its size if that is past the end. It stops at the buffer's end, or once wrapped at `first_data_index`. It returns at least one byte when asked for any. |
| Device.RotatedBytes | pandriver.c:239-255 | The bytes of the chronological buffer are the physical bytes rotated to start at `4*first_data_index`. |
| Device.WindowOfRotation | pandriver.c:249-255 | The physical window a data read picks is the matching stretch of the rotated bytes. |
| Device.DataBytes | pandriver.c:239-259 | A data read returns the next bytes of the device file, at most `count` of them, and at least one when `count > 0`. |
| Device.Serve | pandriver.c:230-260 | A read at or past the end returns nothing. Otherwise it returns the next bytes of the file. A header read returns the rest of the header, `92 - fpos` bytes, whatever `count` is. A data read returns at most `count` bytes, and at least one when `count > 0`. |
| Device.ServeCorrected | pandriver.c:230-260 | Corrected: the next bytes of the file, at most `count` of them, and at least one when `count > 0` before the end. A header read returns `HeaderSpan` bytes. |
| Device.ServeCorrectedPrefix | pandriver.c:232-237 | The corrected read returns a prefix of the driver's read. The two agree exactly when the read is past the header or asks for at least the rest of it. |
| Device.ReadOverruns | pandriver.c:233-235 | As written, a 4-byte read at offset 0 returns all 92 header bytes and moves the position to 92, where the corrected read returns 4. |
| Device.Read | pandriver.c:210-264 | A bad magic number is `EINVAL`. A read with a buffer serves the file as `Serve` does and advances the position by the bytes returned. `EFAULT` happens exactly when an allocation is needed and fails or is empty, and it changes nothing. `EINTR` leaves the buffer allocated with the old `first_data_index`. Failures keep the position. |
| Device.Write | pandriver.c:266-278 | Writes past the header do nothing. A write inside the header copies the rest of the header, `92 - fpos` bytes, whatever `count` is. The header image becomes the old image with those bytes spliced in, zeros standing for any that could not be read. Too few readable bytes is then `EFAULT` with the position kept. Otherwise the position moves to 92 when the new header has the magic number, and the result is `EINVAL` when it does not. The buffer is untouched. |
| Device.Copied | pandriver.c:271 | The `k` bytes a copy leaves: the readable bytes, then zeros. |
| Device.StoreHeader | pandriver.c:271-276 | Copying `k` bytes at `fpos` always splices the copied bytes into the image, zero-filled where unreadable. Fewer readable bytes than `k` is `EFAULT`. Otherwise the magic number decides between advancing by `k` and `EINVAL`. |
| Device.WriteCorrected | pandriver.c:266-278 | Corrected: a write inside the header copies `HeaderSpan` bytes, never more than `count`, with the same outcomes and the same zero fill. |
| Device.WriteCorrectedAgrees | pandriver.c:266-278 | The corrected write equals the driver's whenever the write is past the header or covers at least the rest of it. |
| Device.WriteOverruns | pandriver.c:270-272 | As written, a 4-byte write at offset 0 with only those 4 bytes readable fails with `EFAULT`, because the driver copies 92 bytes. The header is left as those 4 bytes followed by 88 zero bytes. The corrected write does not fail with `EFAULT`. It stores the 4 bytes as the magic word and returns 4 if they are the magic number, and `EINVAL` otherwise. |
| Device.SplicedMagic | pandriver.c:270-272 | Four bytes written at offset 0 become the header's magic word, read little-endian. |
| Device.Splice | pandriver.c:271 | The spliced image keeps its length, holds the new bytes at the offset and is unchanged elsewhere. |
| Device.ReadAll | pandriver.c:230-263 | Reading from offset 0 in `count`-byte reads until a read returns nothing yields exactly the device file, for any `count > 0`, with the driver's header reads. |
| Device.WriteWholeHeader | pandriver.c:266-278 | A whole 92-byte header with the magic number written at offset 0 is accepted in full and replaces the header, whatever `count` is passed. |
| Device.ReadHeader | pandriver.c:232-237 | A successful read at offset 0 returns exactly the header image, whatever `count` is passed. |
| Device.WriteThenRead | pandriver.c:201-278 | In the session close, open, write header, read: the write takes all 92 bytes and leaves no buffer. The read fails with `EFAULT` exactly when the allocation does. When it returns data, that data is exactly the header written. |
| Device.CapturedFile | pandriver.c:217-263 | After the first read of a session returns data, the device file is the header followed by the last `num_samples` accepted samples, oldest first, for every header the device admits. |
| Encoder.Masked | Panalyzer.c:771-776 | Each sample is restricted to the captured channels. |
| Encoder.BuildMask | Panalyzer.c:759-762 | The loop builds the OR of the channel bits. For the default channels it equals the default header's channel mask. |
| Encoder.Edges | Panalyzer.c:769-778 | The scan's first record holds sample 0. The last record carries the last sample's levels. |
| Encoder.Encoding | Panalyzer.c:769-781 | The record list has between 2 and `n + 1` records. It starts with sample 0's levels and ends with a sentinel at `n` repeating the last levels. |
| Encoder.Encode | Panalyzer.c:759-781 | The encoder loop produces a canonical record list of at most `n + 1` records. The list expands back to exactly the masked samples. |
| Encoder.EdgesCanonical | Panalyzer.c:772-778 | The scan's records have increasing sample indices, and neighbouring records differ. |
| Encoder.EncodingCanonical | Panalyzer.c:769-781 | The encoder only produces canonical record lists. |
| Encoder.ExpandLength | Panalyzer.c:769-781 | An increasing record list expands to as many samples as its first and last records are apart. |
| Encoder.ExpandEncoding | Panalyzer.c:769-781 | Expanding the encoding of the samples gives back the samples. |
| Encoder.EdgesStep | Panalyzer.c:774-777 | One more sample adds a record exactly when it differs from the last record's levels. |
| Encoder.EncodingOfExpand | Panalyzer.c:769-781 | Encoding the expansion of a canonical record list gives back the list, so canonical lists and non-empty sample sequences correspond one to one. |
| Encoder.ReencodeIdempotent | Panalyzer.c:769-781 | Encoding what an encoding expands to changes nothing. |
| Viewer.ResetView | Panalyzer.c:749-756 | Both views show the whole buffer. The cursors sit `n/50` in from either end and nothing else changes. |
| Viewer.Prepopulate | Panalyzer.c:417-438 | The default state is the default header twice and a single all-low record up to 10000. It has views over 10000 samples and cursors at 200 and 9800. |
| Viewer.PrepopulateIsFlatCapture | Panalyzer.c:417-438 | The default records are exactly the encoding of 10000 low samples, which they also expand to. |
| Viewer.Trace | Panalyzer.c:723-746 | The samples behind an accepted header are its `num_samples` words. |
| Viewer.Receive | Panalyzer.c:700-781 | A short header or a bad magic number resets everything to the defaults. Otherwise the header becomes current and the reference for the next capture. The records are canonical and expand to the masked samples. Views are reset exactly when the buffer size changed, and otherwise views and cursors are kept. |
| Viewer.DeviceFileParts | Panalyzer.c:694-746 | The device file after a capture is accepted, and its header and samples are the driver's header and chronological buffer. |
| Viewer.ReceiveDeviceFile | Panalyzer.c:694-781 | The records the viewer draws from a device file expand to the driver's buffer, oldest first, under the viewer's mask. |
| Dialog.LevelsAreLabels | Panalyzer.c:839 | The level labels are exactly the characters of "01-". |
| Dialog.LevelIndex | Panalyzer.c:842 | `strchr` finds a label at its position, and the terminator for an empty label. |
| Dialog.NextLabel | Panalyzer.c:838-847 | A click always leaves a level label. |
| Dialog.LabelCycle | Panalyzer.c:838-847 | Three clicks bring a label back, visiting all three labels. An empty label becomes "0". |
| Dialog.TrigEnables | Panalyzer.c:849-870 | Switching a box on ticks every box up to the highest ticked one. Switching it off clears every box after the first unticked one. The result is a prefix that keeps the toggled box, and a prefix is left unchanged. |
| Dialog.Digits | Panalyzer.c:881-882 | Only digits are kept, in order. |
| Dialog.StripZeros | Panalyzer.c:879-880 | Leading zeros are dropped, and the result does not start with 0. |
| Dialog.TrigSamples | Panalyzer.c:873-886 | The handler keeps the digits of the text's first seven bytes, without leading zeros: a text of up to seven digits with no leading zero. |
| Dialog.Utf8Char | Panalyzer.c:874 | One character encodes to one to four bytes. An ASCII character is its own byte, and every byte of a non-ASCII character is 0x80 or more. |
| Dialog.Utf8 | Panalyzer.c:874 | A text's UTF-8 encoding has at least as many bytes as the text has characters. |
| Dialog.Utf8Ascii | Panalyzer.c:874 | An ASCII text is its own UTF-8 encoding, so the handler sees its characters. |
| Dialog.Utf8Digits | Panalyzer.c:874-882 | The digits among a text's bytes are exactly the digits among its characters. |
| Dialog.EuroBytes | Panalyzer.c:874 | The euro sign is the three bytes E2 82 AC. |
| Dialog.EuroWindow | Panalyzer.c:874-884 | "€12345" is eight bytes, and the handler keeps "1234" of it, though its characters hold the digits "12345". |
| Dialog.FilteredFixed | Panalyzer.c:873-886 | The filter leaves a text unchanged exactly when the text is already a valid min-samples text. |
| Dialog.FilteredIdempotent | Panalyzer.c:873-886 | Filtering twice is filtering once, so the handler firing again on its own text changes nothing. |
| Dialog.FocusOut | Panalyzer.c:889-896 | An empty entry becomes "1" on focus-out. A non-empty entry is left as it is. |
| Dialog.Show | Panalyzer.c:980 | `%d` of a non-negative number is a non-empty run of digits. |
| Dialog.AtoiShow | Panalyzer.c:980-998 | `atoi` of the printed number is the number. |
| Dialog.ShowAtoi | Panalyzer.c:980-998 | A digit text without a leading zero prints back as itself after `atoi`. |
| Dialog.CommittedSamples | Panalyzer.c:873-896 | After the filter and focus-out, the entry commits a number from 1 to 9999999 that prints back as the same text. |
| Dialog.SevenDigits | Panalyzer.c:873-886 | A valid min-samples text reads as a number below ten million. |
| Dialog.Normalize | Panalyzer.c:978-979 | Opening the dialog rewrites a minimum of 0 to 1 and changes nothing else. |
| Dialog.Level | Panalyzer.c:982-989 | A button shows a level label. |
| Dialog.Labels | Panalyzer.c:982-989 | There is one label per column, the label of its channel for the stage. |
| Dialog.SamplesText | Panalyzer.c:978-981 | The entry shows a valid min-samples text. |
| Dialog.PopulateEnables | Panalyzer.c:973-975 | After opening, a box is ticked exactly when its stage or a later one is enabled, so the boxes form a prefix. |
| Dialog.Populate | Panalyzer.c:973-990 | The opened dialog shows every stage: its entry, its labels and the enable closure. The header is left with every minimum of 0 rewritten to 1, whether or not OK is pressed. |
| Dialog.SelectedMembers | Panalyzer.c:1000-1007 | A channel is collected exactly when some column of that channel selects it. |
| Dialog.SelectedColumn | Panalyzer.c:1000-1007 | With distinct channels, a column's channel is collected exactly when that column's label selects it. |
| Dialog.LabelsSelect | Panalyzer.c:982-1007 | For the labels showing a stage, a channel is collected exactly when it has a column and its label selects. |
| Dialog.LevelSelects | Panalyzer.c:983-1006 | A shown label puts the channel in the mask when the mask bit was set, and in the value when both bits were set. Those two facts determine the label. |
| Dialog.Commit | Panalyzer.c:995-1010 | OK turns a row into a stage whose enabled field is 0 or 1, nonzero exactly when the box is ticked. Its minimum is the `atoi` of the entry, below ten million. |
| Dialog.CommitValueInMask | Panalyzer.c:1000-1006 | Whatever labels the user leaves, a committed value bit is always also a mask bit. |
| Dialog.CommitMaskInChannels | Panalyzer.c:1000-1006 | Whatever labels the user leaves, a committed mask bit always belongs to a channel with a column. |
| Dialog.ShowCanonical | Panalyzer.c:873-886 | A number from 1 to 9999999 prints as a valid min-samples text, which the filter leaves unchanged. |
| Dialog.StoredLabel | Panalyzer.c:982-989 | A stage whose mask and value are the masks of two channel lists shows, for channel `c`, the label of `c`'s membership in each. |
| Dialog.CommitBits | Panalyzer.c:999-1009 | A committed stage holds exactly the masks collected from its row's labels. |
| Dialog.CollectedMaskBit | Panalyzer.c:982-1004 | The mask collected from a shown stage has bit `b` exactly when `b` has a column and was in the stage's mask. |
| Dialog.CollectedValueBit | Panalyzer.c:982-1006 | The value collected from a shown stage has bit `b` exactly when `b` has a column and was set in both mask and value. |
| Dialog.CommitMaskBit | Panalyzer.c:973-1010 | Opening and pressing OK keeps mask bit `b` exactly when `b` has a column and the bit was set. |
| Dialog.CommitValueBit | Panalyzer.c:973-1010 | Opening and pressing OK keeps value bit `b` exactly when `b` has a column and it was set under the mask. A value bit outside the mask is lost. |
| Dialog.SamplesTextRoundTrip | Panalyzer.c:976-998 | The entry of an opened stage commits back its minimum, 0 becoming 1, when the minimum has at most seven digits. |
| Dialog.CommitPopulate | Panalyzer.c:973-1010 | Opening and pressing OK keeps the in-column mask and value bits, the box's state, and a minimum below ten million with 0 becoming 1. |
| Dialog.LabelRoundTrip | Panalyzer.c:995-1010 | A committed stage shows, in each column, the label that column had, provided no channel has two columns. |
| Dialog.PopulateCommit | Panalyzer.c:973-1010 | A row with a valid non-empty entry and level labels is shown again unchanged by the stage it commits to: labels, entry and box. |
| Dialog.ShowsUnique | Panalyzer.c:973-990 | The rows the opened dialog shows are determined by the stages. |
| Dialog.ReopenEnables | Panalyzer.c:973-975 | When the ticked boxes form a prefix, the committed stages tick the same boxes again on reopening. |
| Dialog.ReopenShows | Panalyzer.c:973-1010 | The stages committed from rows whose boxes form a prefix, with level labels, valid non-empty entries and distinct channels, show those same rows. |
| Dialog.CloseAndReopen | Panalyzer.c:973-1010 | Pressing OK and opening the dialog again shows exactly the rows it was closed with. |

## Left out

- GTK widgets, cairo drawing, the refresh timer, dialogs, file-descriptor handling, and the kernel plumbing (`init_module`, `cleanup_module`, `ioremap`, interrupt masking, `printk`) are out of scope. The device functions take the caller's buffer contents as parameters. The capture takes the hardware as a stream of reads.
- The timing of the hardware is left out. The busy-wait is modelled by skipping reads with the same tick, and a capture whose stream runs out is reported as still running.
- Capture: `state_samples` is an unbounded integer, so the model keeps counting where the C `int` would be decremented past `INT_MIN` (undefined behaviour). A dwell that starts negative gets there. That happens for `min_samples` 0 on a later stage (pandriver.c:142). It also happens for a `min_samples` too large for an `int`: 2^31 or more on stage 0 (pandriver.c:89, 150), or above 2^31 on a later stage (pandriver.c:142). The `int` holds such a value as a negative number. With 2^31 on stage 0, the first sample after the pre-trigger fill already overflows it (pandriver.c:146). In the other cases it takes up to about 2^31 samples. Capture.RecheckStuck, Capture.FeedStuck and Capture.StuckCaptureNeverCompletes rely on the unbounded count.
- Device.Read: requires the header's file size to fit in 32 bits (`Fits`). It also requires an existing buffer to match `num_samples` with `first_data_index` inside it. `dev_write` can change `num_samples` while a buffer is allocated, and an aborted capture leaves a stale `first_data_index`. The driver then reads outside its buffer, which is not modelled.
- Device.Read: the caller's buffer size is not a parameter. A header read copies `92 - fpos` bytes whatever `count` is, and whether `copy_to_user` then faults depends on the caller's address space, so that `EFAULT` is not modelled.
- Device: `copy_from_user` is taken to copy every readable byte before it fails and to zero the rest. A real fault can stop at an earlier byte of the same page, and the kernel then zeroes from there.
- Dialog.TrigEnables: `set_active` fires the handler again from inside its own loops (Panalyzer.c:859, 867), on boxes that do not yet form a prefix. The model runs the outer call only. Each nested run ticks (or clears) boxes toward the same prefix the outer call produces, so the result is the same, but that argument is not proved.
- Device: `vmalloc` is a parameter that succeeds or fails. The allocation size `num_samples * sizeof(uint32_t *)` is taken to be 4 bytes per sample, as on the 32-bit Pi.
- Viewer.Receive: requires `num_samples >= 1` and the full sample data. With 0 samples the viewer reads the first sample of an empty buffer. A sample read that fails (`res < 0`) shows an error dialog and resets to the defaults (Panalyzer.c:739-744). A truncated trace file is worse: `read` returns 0, `cnt` stays unchanged, and the loop at Panalyzer.c:732-737 spins forever, hanging the viewer. A failed `malloc` calls `gtk_main_quit()` (lines 726 and 767), which does not stop the function: it goes on to read into or write through a NULL pointer. None of these is modelled. A short header read is modelled as the reset to defaults.
- Viewer: the `int` size `num_samples * 4` and the `int` loop index overflow for 2^29 samples or more, which is not modelled.
- Dialog.SamplesText: prints the minimum as a non-negative decimal. The C code prints a `uint32` with `%d` into an 8-byte buffer, which overflows for minimums of ten million or more and prints values from 2^31 up as negative. So SamplesTextRoundTrip and CommitPopulate promise the minimum only below ten million.
- Dialog: the entry's `set_max_length(6)` limit (Panalyzer.c:960) is not modelled. The toolkit applies it to typed text and to text the program sets, so a 7-digit minimum would show as its first six digits. The model's entry holds what the handler's filter keeps, up to seven bytes. That is why CommittedSamples bounds the committed number by 9999999 and SamplesTextRoundTrip covers seven digits.
- Dialog: populating the dialog calls `set_active` and `set_text`, which fire the enable and entry handlers at once. The model applies them synchronously: `PopulateEnables` runs `TrigEnables` for each enabled stage, and `SamplesText` applies the filter.
- Dialog: building the widgets (Panalyzer.c:898-970) is not modelled. The model takes from it that every level button starts with the label "-" (line 950).
- Dialog.Commit: requires the entry to hold a valid min-samples text. The entry's handlers make that so for any typed text (TrigSamples, CommittedSamples).

## Findings

| source | as written | input that shows it | evidently intended | confidence | as-written member | corrected member |
|---|---|---|---|---|---|---|
| pandriver.c:233 | `dev_read` sets `count = sizeof(panctl_t) - *f_pos`, discarding the caller's `count`. A header read copies to the end of the header whatever the buffer size. | `read(fd, buf, 4)` at offset 0 copies 92 bytes into a 4-byte buffer and returns 92. | Copy `min(count, sizeof(panctl_t) - *f_pos)` bytes. | not executed | Device.ReadOverruns | Device.ServeCorrected |
| pandriver.c:270 | `dev_write` sets `count = sizeof(panctl) - *f_pos` the same way, so a write inside the header always copies to its end. | `write(fd, buf, 4)` at offset 0 reads 92 bytes from a 4-byte buffer. When the rest is unreadable the write fails with `EFAULT`, after overwriting the header with the 4 bytes and 88 zeros. | Copy `min(count, sizeof(panctl) - *f_pos)` bytes. | not executed | Device.WriteOverruns | Device.WriteCorrected |

=== FILE: arith.dfy ===
/** Division and remainder facts the solver does not find on its own. */
module Arith {

  lemma {:induction false} MulAtLeast(x: int, n: int)
    requires x >= 1 && n > 0
    ensures x * n >= n
    decreases x
  {
    if x > 1 {
      MulAtLeast(x - 1, n);
      assert x * n == (x - 1) * n + n;
    }
  }

  /** Quotient and remainder are the unique `q`, `r` with `a == q * n + r`
      and `0 <= r < n`. */
  lemma DivModUnique(a: int, n: int, q: int, r: int)
    requires n > 0 && 0 <= r < n && a == q * n + r
    ensures a % n == r && a / n == q
  {
    var q0, r0 := a / n, a % n;
    assert a == q0 * n + r0;
    assert q * n - q0 * n == (q - q0) * n;
    if q > q0 { MulAtLeast(q - q0, n); }
    if q < q0 { MulAtLeast(q0 - q, n); }
  }

  lemma ModSucc(a: nat, n: nat)
    requires n > 0
    ensures (a % n + 1) % n == (a + 1) % n
  {
    var q, r := a / n, a % n;
    assert a == q * n + r;
    if r + 1 == n {
      assert a + 1 == (q + 1) * n + 0;
      DivModUnique(a + 1, n, q + 1, 0);
      DivModUnique(r + 1, n, 1, 0);
    } else {
      DivModUnique(a + 1, n, q, r + 1);
      DivModUnique(r + 1, n, 0, r + 1);
    }
  }

  /** Reducing a summand modulo `n` first does not change the sum modulo `n`. */
  lemma ModAddLeft(a: int, b: int, n: int)
    requires n > 0
    ensures (a % n + b) % n == (a + b) % n
  {
    var q := a / n;
    assert a == q * n + a % n;
    var r := (a + b) % n;
    var p := (a + b) / n;
    assert a + b == p * n + r;
    assert a % n + b == (p - q) * n + r;
    DivModUnique(a % n + b, n, p - q, r);
  }
}

=== FILE: capture.dfy ===
/**
  The driver's triggered capture loop, `capture()` in pandriver.c, as a pure
  step function. The hardware reads become a finite stream of `Read`s: each
  is one read of the free-running 32-bit tick counter together with the GPIO
  levels read right after it. A read whose tick equals the last accepted tick
  is what the busy-wait discards; any other read is accepted, stored in the
  ring, and drives the pre-trigger fill, the trigger stages, the abort check
  and the post-trigger countdown.
 */
module Capture {
  import opened Layout
  import Ring
  import Arith

  /** One read of the tick counter and the sample register. */
  datatype Read = Read(tick: uint32, sample: uint32)

  /** The driver's `state`: matching stage `stage`, or -1 ("armed", also
      the state of a capture with no stage enabled). */
  datatype Phase = Matching(stage: nat) | Armed

  /** What `capture()` fixes before the loop: the trigger table, the index
      of the last stage in the chain, and the tick at which to give up. */
  datatype Setup = Setup(trigger: seq<Stage>, last: int, abortTime: uint32)
  {
    ghost predicate Valid() {
      |trigger| == MAX_TRIGGERS && -1 <= last < MAX_TRIGGERS
    }
  }

  /** The loop's variables: the phase, `state_samples` (the stage's remaining
      dwell), the pre- and post-trigger counters, `overruns` (as its 32-bit
      pattern), the last accepted tick `t`, and the sample buffer with its
      write cursor. */
  datatype Run = Run(
    phase: Phase,
    dwell: int,
    pre: int,
    post: int,
    overruns: uint32,
    tick: uint32,
    ring: Ring.Ring)
  {
    ghost predicate Valid(setup: Setup) {
      && ring.Valid()
      && (phase.Matching? ==> phase.stage as int <= setup.last)
    }
  }

  /** `Completed`: the loop broke out (`capture` returns 0); `Aborted`: the
      abort tick was hit (`-EINTR`); `Running`: the reads ran out while the
      loop would still be spinning. */
  datatype Status = Completed | Aborted | Running

  datatype Transition = Transition(status: Status, run: Run)

  /** A run of the loop over a stream: how it ended, the final variables, and
      how many reads of the stream it took. */
  datatype Outcome = Outcome(status: Status, run: Run, consumed: nat)

  /** The result of the stage logic for one sample. */
  datatype Verdict = Arm | Stay(stage: nat, dwell: int)

  /** The value a uint32 has once stored in a C `int` (two's complement);
      storing it back in a uint32 gives the original. */
  function ToInt32(x: uint32): (r: int)
    ensures -0x8000_0000 <= r < 0x8000_0000
    ensures r >= 0 <==> x < 0x8000_0000
    ensures Wrap(r) == x
  {
    if x < 0x8000_0000 then x else x - TWO_TO_THE_32
  }

  /** A trigger stage as the loop reads it from `panctl`: the mask and the
      value as bit patterns, and `min_samples`. */
  datatype Stage = Stage(mask: bv32, value: bv32, minSamples: uint32)

  /** The stages of a trigger table, entry by entry. */
  function Stages(ts: seq<Trigger>): (ss: seq<Stage>)
    ensures |ss| == |ts|
  {
    seq(|ts|, k requires 0 <= k < |ts| => Stage(ts[k].MaskBits(), ts[k].ValueBits(), ts[k].minSamples))
  }

  /** The sample satisfies a stage: `(mask & sample) == value`. */
  predicate Matches(t: Stage, sample: uint32) {
    t.mask & (sample as bv32) == t.value
  }

  /** The first index at or after `k` whose stage is disabled (or
      `MAX_TRIGGERS`): the scanning loop that computes `last_state`. */
  function EnabledUpTo(trigger: seq<Trigger>, k: nat): (r: nat)
    requires |trigger| == MAX_TRIGGERS && k <= MAX_TRIGGERS
    ensures k <= r <= MAX_TRIGGERS
    ensures forall j :: k <= j < r ==> trigger[j].enabled != 0
    ensures r < MAX_TRIGGERS ==> trigger[r].enabled == 0
    decreases MAX_TRIGGERS - k
  {
    if k < MAX_TRIGGERS && trigger[k].enabled != 0 then EnabledUpTo(trigger, k + 1) else k
  }

  /** `last_state`: one less than the length of the enabled prefix of the
      trigger table. Stages after the first disabled one are ignored, and
      -1 means no trigger. */
  function LastState(trigger: seq<Trigger>): (r: int)
    requires |trigger| == MAX_TRIGGERS
    ensures -1 <= r < MAX_TRIGGERS
    ensures forall j :: 0 <= j <= r ==> trigger[j].enabled != 0
    ensures r + 1 < MAX_TRIGGERS ==> trigger[r + 1].enabled == 0
    ensures r == -1 <==> trigger[0].enabled == 0
  {
    EnabledUpTo(trigger, 0) - 1
  }

  /** `post_trigger_samples`, computed in uint32 arithmetic (`num_samples *
      19` wraps) and stored in an `int`. */
  function PostTrigger(n: uint32, triggerPoint: uint32): int {
    if triggerPoint == 0 then ToInt32(Wrap(n * 19) / 20)
    else if triggerPoint == 1 then ToInt32(n / 2)
    else ToInt32(n / 20)
  }

  /** `pre_trigger_samples = num_samples - post_trigger_samples`, again in
      uint32 arithmetic stored in an `int`. */
  function PreTrigger(n: uint32, triggerPoint: uint32): int {
    ToInt32(Wrap(n - PostTrigger(n, triggerPoint)))
  }

  /** Trigger point 0 keeps 19/20 of the buffer after the trigger, 1 half,
      anything else 1/20, and the rest is pre-trigger history; this holds
      exactly while `num_samples * 19` does not wrap. */
  lemma TriggerPointSplit(n: uint32, triggerPoint: uint32)
    requires n * 19 < TWO_TO_THE_32
    ensures triggerPoint == 0 ==> PostTrigger(n, triggerPoint) == n * 19 / 20
    ensures triggerPoint == 1 ==> PostTrigger(n, triggerPoint) == n / 2
    ensures triggerPoint != 0 && triggerPoint != 1 ==> PostTrigger(n, triggerPoint) == n / 20
    ensures 0 <= PostTrigger(n, triggerPoint) <= n
    ensures PreTrigger(n, triggerPoint) == n - PostTrigger(n, triggerPoint)
  {
    var post := PostTrigger(n, triggerPoint);
    if triggerPoint == 0 {
      WrapSmall(n * 19);
      ToInt32Small(n * 19 / 20);
    } else if triggerPoint == 1 {
      ToInt32Small(n / 2);
    } else {
      ToInt32Small(n / 20);
    }
    WrapSmall(n - post);
    ToInt32Small(n - post);
  }

  /** Whatever the trigger point, and even once `num_samples * 19` wraps,
      the post-trigger count lies in `0..n` and the pre-trigger count is the
      rest of the buffer, for every `n` below 2^31. */
  lemma SplitSum(n: uint32, triggerPoint: uint32)
    requires n < 0x8000_0000
    ensures 0 <= PostTrigger(n, triggerPoint) <= n
    ensures PreTrigger(n, triggerPoint) + PostTrigger(n, triggerPoint) == n
  {
    if triggerPoint == 0 {
      var w := Wrap(n * 19);
      if n * 19 < TWO_TO_THE_32 {
        WrapSmall(n * 19);
      } else {
        assert w / 20 < 0x0D00_0000 <= n;
      }
      ToInt32Small(w / 20);
    } else if triggerPoint == 1 {
      ToInt32Small(n / 2);
    } else {
      ToInt32Small(n / 20);
    }
    var post := PostTrigger(n, triggerPoint);
    WrapSmall(n - post);
    ToInt32Small(n - post);
  }

  lemma WrapSmall(x: int)
    requires 0 <= x < TWO_TO_THE_32
    ensures Wrap(x) == x
  {
  }

  lemma ToInt32Small(x: uint32)
    requires x < 0x8000_0000
    ensures ToInt32(x) == x
  {
  }

  /** Once `num_samples * 19` wraps, trigger point 0 no longer keeps 19/20
      of the buffer: with 2^28 samples it keeps fewer than a sixth. */
  lemma TriggerPointWraps()
    ensures PostTrigger(0x1000_0000, 0) < 0x1000_0000 / 6
  {
    assert Wrap(0x1000_0000 * 19) == 0x3000_0000;
  }

  /** 100 samples split 5/95, 50/50 and 95/5 for trigger points 0, 1, 2. */
  lemma TriggerPointExample()
    ensures PreTrigger(100, 0) == 5 && PostTrigger(100, 0) == 95
    ensures PreTrigger(100, 1) == 50 && PostTrigger(100, 1) == 50
    ensures PreTrigger(100, 2) == 95 && PostTrigger(100, 2) == 5
  {
    TriggerPointSplit(100, 0);
    TriggerPointSplit(100, 1);
    TriggerPointSplit(100, 2);
  }

  /** `abort_time`: `start + 2n` ticks for more than 500000 samples,
      `start + 1000000` otherwise, in wrapping uint32 arithmetic. */
  function AbortTime(start: uint32, n: uint32): uint32 {
    Wrap(start + (if n > 500000 then Wrap(n * 2) else 1000000))
  }

  /** The variables as the loop is entered at tick `start`. */
  function Begin(ctl: PanCtl, start: uint32): (sr: (Setup, Run))
    requires ctl.Valid() && ctl.numSamples > 0
    ensures sr.0.Valid() && sr.1.Valid(sr.0)
    ensures sr.1.ring == Ring.Fresh(ctl.numSamples) && sr.1.tick == start && sr.1.overruns == 0
    ensures sr.1.phase == (if ctl.trigger[0].enabled == 0 then Armed else Matching(0))
  {
    var last := LastState(ctl.trigger);
    var setup := Setup(Stages(ctl.trigger), last, AbortTime(start, ctl.numSamples));
    var run := Run(
      if last < 0 then Armed else Matching(0),
      ToInt32(ctl.trigger[0].minSamples),
      PreTrigger(ctl.numSamples, ctl.triggerPoint),
      PostTrigger(ctl.numSamples, ctl.triggerPoint),
      0, start, Ring.Fresh(ctl.numSamples));
    (setup, run)
  }

  /** The dwell a stage is left with when the cascade advances into it:
      `min_samples - 1`, decremented once more on the same sample unless it
      is already 0. */
  function AdvancedDwell(t: Stage): int {
    var d := ToInt32(Wrap(t.minSamples - 1));
    if d == 0 then 0 else d - 1
  }

  /** `min_samples - 1` stored in an `int` is 0 exactly when `min_samples` is 1. */
  lemma DecrementIsZero(m: uint32)
    ensures ToInt32(Wrap(m - 1)) == 0 <==> m == 1
  {
  }

  /** The dwell of stage 0 after any mismatch: its full `min_samples`. */
  function RestartDwell(setup: Setup): int
    requires setup.Valid()
  {
    ToInt32(setup.trigger[0].minSamples)
  }

  /** The stage logic for one sample at stage `state` with `dwell` samples
      still to hold (the code from the `recheck` label on). Each jump back to
      `recheck` advances the stage, so it runs at most `last - state` times. */
  function Recheck(setup: Setup, state: nat, dwell: int, sample: uint32): (v: Verdict)
    requires setup.Valid() && state as int <= setup.last
    ensures v.Stay? ==> v.stage as int <= setup.last
    decreases setup.last - state as int
  {
    if dwell == 0 && state as int == setup.last then
      Arm
    else if dwell == 0 && Matches(setup.trigger[state + 1], sample) then
      var next := state + 1;
      Recheck(setup, next, ToInt32(Wrap(setup.trigger[next].minSamples - 1)), sample)
    else if !Matches(setup.trigger[state], sample) then
      Stay(0, RestartDwell(setup))
    else
      Stay(state, if dwell == 0 then 0 else dwell - 1)
  }

  /** Where the stage logic leaves a sample. While the dwell is nonzero it
      counts down on a sample matching the current stage, and any other
      sample restarts stage 0 with its full dwell. Once the dwell is 0 a
      sample that does not match the next stage is treated the same way,
      with the dwell staying 0. A sample that matches the next stage moves
      the chain forward: it arms or stays at a later stage, never
      restarting. A later stage is only reached from a dwell of 0, and is
      left with the dwell the cascade gives it (`AdvancedDwell`). */
  lemma {:induction false} RecheckStays(setup: Setup, state: nat, dwell: int, sample: uint32)
    requires setup.Valid() && state as int <= setup.last
    ensures var v := Recheck(setup, state, dwell, sample);
      && (dwell != 0 ==>
            v == (if Matches(setup.trigger[state], sample) then Stay(state, dwell - 1)
                  else Stay(0, RestartDwell(setup))))
      && (dwell == 0 && state as int < setup.last && !Matches(setup.trigger[state + 1], sample) ==>
            v == (if Matches(setup.trigger[state], sample) then Stay(state, 0)
                  else Stay(0, RestartDwell(setup))))
      && (dwell == 0 && state as int < setup.last && Matches(setup.trigger[state + 1], sample) ==>
            v.Arm? || state < v.stage)
      && (v.Stay? ==> Matches(setup.trigger[v.stage], sample) || v == Stay(0, RestartDwell(setup)))
      && (v.Stay? && v.stage > state ==> dwell == 0 && v.dwell == AdvancedDwell(setup.trigger[v.stage]))
    decreases setup.last - state as int
  {
    if dwell == 0 && state as int != setup.last && Matches(setup.trigger[state + 1], sample) {
      var next := state + 1;
      var d := ToInt32(Wrap(setup.trigger[next].minSamples - 1));
      RecheckStays(setup, next, d, sample);
      assert Recheck(setup, state, dwell, sample) == Recheck(setup, next, d, sample);
    }
  }

  /** The stage logic can move on from `state` on this sample: the dwell
      has run out and the sample matches the next stage. */
  predicate Advances(setup: Setup, state: nat, dwell: int, sample: uint32)
    requires setup.Valid()
  {
    dwell == 0 && state as int < setup.last && state + 1 < MAX_TRIGGERS
    && Matches(setup.trigger[state + 1], sample)
  }

  /** One jump back to `recheck`: a sample that advances is handed to the
      next stage with that stage's dwell. */
  lemma RecheckNext(setup: Setup, state: nat, dwell: int, sample: uint32)
    requires setup.Valid() && state as int <= setup.last
    requires Advances(setup, state, dwell, sample)
    ensures Recheck(setup, state, dwell, sample)
      == Recheck(setup, state + 1, ToInt32(Wrap(setup.trigger[state + 1].minSamples - 1)), sample)
  {
  }

  /** A sample leaves the current stage for a later one exactly when it
      advances, and advancing never restarts the chain. */
  lemma RecheckMoves(setup: Setup, state: nat, dwell: int, sample: uint32)
    requires setup.Valid() && state as int <= setup.last
    ensures var v := Recheck(setup, state, dwell, sample);
      && (v.Stay? && v.stage > state ==> Advances(setup, state, dwell, sample))
      && (Advances(setup, state, dwell, sample) ==> v.Arm? || v.stage > state)
      && (dwell == 0 && state as int == setup.last ==> v.Arm?)
  {
    RecheckStays(setup, state, dwell, sample);
  }

  /** One stage a cascade passes: stage `j`, past `state` and not past where
      the sample stays, matches the sample, and holds for a single sample
      unless the cascade stops there. */
  lemma {:induction false} RecheckPasses(setup: Setup, state: nat, dwell: int, sample: uint32, j: nat)
    requires setup.Valid() && state as int <= setup.last
    requires var v := Recheck(setup, state, dwell, sample); v.Stay? && state < j <= v.stage
    ensures Matches(setup.trigger[j], sample)
    ensures j < Recheck(setup, state, dwell, sample).stage ==> setup.trigger[j].minSamples == 1
    decreases setup.last - state as int
  {
    var v := Recheck(setup, state, dwell, sample);
    RecheckMoves(setup, state, dwell, sample);
    RecheckNext(setup, state, dwell, sample);
    var next := state + 1;
    var d := ToInt32(Wrap(setup.trigger[next].minSamples - 1));
    if j > next {
      RecheckPasses(setup, next, d, sample, j);
    } else if j < v.stage {
      RecheckMoves(setup, next, d, sample);
      DecrementIsZero(setup.trigger[next].minSamples);
    }
  }

  /** The stages a cascade passes. A sample that moves the chain to a later
      stage matches every stage it passes into, and each stage it passes
      through holds for a single sample. */
  lemma RecheckCascade(setup: Setup, state: nat, dwell: int, sample: uint32)
    requires setup.Valid() && state as int <= setup.last
    ensures var v := Recheck(setup, state, dwell, sample);
      v.Stay? && v.stage > state ==>
        && (forall j :: state < j <= v.stage ==> Matches(setup.trigger[j], sample))
        && (forall j :: state < j < v.stage ==> setup.trigger[j].minSamples == 1)
  {
    var v := Recheck(setup, state, dwell, sample);
    if v.Stay? && v.stage > state {
      forall j | state < j <= v.stage
        ensures Matches(setup.trigger[j], sample)
        ensures j < v.stage ==> setup.trigger[j].minSamples == 1
      {
        RecheckPasses(setup, state, dwell, sample, j);
      }
    }
  }

  /** Where a cascade stops: at the first stage that either holds for more
      than one sample or is followed by a stage the sample misses. */
  lemma {:induction false} RecheckCascadeStops(setup: Setup, state: nat, dwell: int, sample: uint32)
    requires setup.Valid() && state as int <= setup.last
    ensures var v := Recheck(setup, state, dwell, sample);
      v.Stay? && v.stage > state ==>
        || setup.trigger[v.stage].minSamples != 1
        || (v.stage as int < setup.last && !Matches(setup.trigger[v.stage + 1], sample))
    decreases setup.last - state as int
  {
    var v := Recheck(setup, state, dwell, sample);
    if v.Stay? && v.stage > state {
      RecheckMoves(setup, state, dwell, sample);
      RecheckNext(setup, state, dwell, sample);
      var next := state + 1;
      var d := ToInt32(Wrap(setup.trigger[next].minSamples - 1));
      if v.stage > next {
        RecheckCascadeStops(setup, next, d, sample);
      } else {
        RecheckMoves(setup, next, d, sample);
        StopsHere(setup, next, sample, v);
      }
    }
  }

  /** A stage entered by a cascade that keeps the sample there holds for
      more than one sample, or is followed by a stage the sample misses. */
  lemma StopsHere(setup: Setup, stage: nat, sample: uint32, v: Verdict)
    requires setup.Valid() && stage as int <= setup.last
    requires v.Stay? && v.stage == stage
    requires var d := ToInt32(Wrap(setup.trigger[stage].minSamples - 1));
      && (Advances(setup, stage, d, sample) ==> v.Arm? || v.stage > stage)
      && (d == 0 && stage as int == setup.last ==> v.Arm?)
    ensures || setup.trigger[stage].minSamples != 1
            || (stage as int < setup.last && !Matches(setup.trigger[stage + 1], sample))
  {
    DecrementIsZero(setup.trigger[stage].minSamples);
  }

  /** A sample cascades as far as it can: with stages 0 to 2 enabled,
      matching everything, and holding for 1, 1 and 5 samples, a sample at
      stage 0 with its dwell spent ends at stage 2 with 3 samples to go. */
  lemma CascadeExample(sample: uint32)
    ensures var open := Stage(0, 0, 1);
      var setup := Setup([open, open, Stage(0, 0, 5), Stage(0, 0, 0)], 2, 0);
      Recheck(setup, 0, 0, sample) == Stay(2, 3)
  {
    var open := Stage(0, 0, 1);
    var setup := Setup([open, open, Stage(0, 0, 5), Stage(0, 0, 0)], 2, 0);
    assert Matches(setup.trigger[1], sample) && Matches(setup.trigger[2], sample);
    assert ToInt32(Wrap(setup.trigger[1].minSamples - 1)) == 0;
    assert ToInt32(Wrap(setup.trigger[2].minSamples - 1)) == 4;
    assert Recheck(setup, 0, 0, sample) == Recheck(setup, 1, 0, sample);
    assert Recheck(setup, 1, 0, sample) == Recheck(setup, 2, 4, sample);
  }

  /** A sample arms the trigger exactly when the dwell of the current stage
      has run out and it matches every later stage, each of which holds for
      a single sample. */
  lemma {:induction false} RecheckArms(setup: Setup, state: nat, dwell: int, sample: uint32)
    requires setup.Valid() && state as int <= setup.last
    ensures Recheck(setup, state, dwell, sample).Arm? <==>
      dwell == 0 && forall j :: state < j <= setup.last ==>
        Matches(setup.trigger[j], sample) && setup.trigger[j].minSamples == 1
    decreases setup.last - state as int
  {
    if dwell == 0 && state as int != setup.last && Matches(setup.trigger[state + 1], sample) {
      var next := state + 1;
      var d := ToInt32(Wrap(setup.trigger[next].minSamples - 1));
      DecrementIsZero(setup.trigger[next].minSamples);
      RecheckArms(setup, next, d, sample);
      assert Recheck(setup, state, dwell, sample) == Recheck(setup, next, d, sample);
    }
  }

  /** One pass of the loop body for an accepted read (the busy-wait ensures
      its tick differs from the last accepted one). */
  function Step(setup: Setup, run: Run, rd: Read): (tr: Transition)
    requires setup.Valid() && run.Valid(setup) && rd.tick != run.tick
    ensures tr.run.Valid(setup)
    ensures tr.run.ring == Ring.Write(run.ring, rd.sample)
    ensures tr.run.tick == rd.tick
    ensures tr.run.overruns == Wrap(run.overruns + rd.tick - run.tick - 1)
    ensures tr.status == Aborted <==>
      run.pre <= 0 && run.phase.Matching? && rd.tick == setup.abortTime
    ensures tr.status == Completed <==> run.pre <= 0 && run.phase.Armed? && run.post <= 1
    ensures run.pre > 0 ==>
      tr.run.pre == run.pre - 1 && tr.run.phase == run.phase && tr.run.post == run.post
    ensures run.pre <= 0 ==> tr.run.pre == run.pre
    ensures run.pre <= 0 && run.phase.Armed? ==> tr.run.post == run.post - 1 && tr.run.phase == Armed
    ensures run.phase.Matching? ==> tr.run.post == run.post
    ensures run.pre <= 0 && run.phase.Matching? && rd.tick != setup.abortTime ==>
      var v := Recheck(setup, run.phase.stage, run.dwell, rd.sample);
      && (v.Arm? ==> tr.run.phase == Armed)
      && (v.Stay? ==> tr.run.phase == Matching(v.stage) && tr.run.dwell == v.dwell)
  {
    var run' := run.(
      overruns := Wrap(run.overruns + rd.tick - run.tick - 1),
      tick := rd.tick,
      ring := Ring.Write(run.ring, rd.sample));
    if run.pre > 0 then
      Transition(Running, run'.(pre := run.pre - 1))
    else if run.phase.Armed? then
      Transition(if run.post - 1 <= 0 then Completed else Running, run'.(post := run.post - 1))
    else if rd.tick == setup.abortTime then
      Transition(Aborted, run')
    else
      match Recheck(setup, run.phase.stage, run.dwell, rd.sample)
      case Arm => Transition(Running, run'.(phase := Armed))
      case Stay(k, d) => Transition(Running, run'.(phase := Matching(k), dwell := d))
  }

  /** The loop over a stream of reads, until it breaks out, aborts, or the
      stream ends. */
  function Loop(setup: Setup, run: Run, stream: seq<Read>): (o: Outcome)
    requires setup.Valid() && run.Valid(setup)
    ensures o.consumed <= |stream| && o.run.Valid(setup)
    ensures |o.run.ring.buf| == |run.ring.buf|
    ensures o.status == Running ==> o.consumed == |stream|
    decreases |stream|
  {
    if stream == [] then
      Outcome(Running, run, 0)
    else if stream[0].tick == run.tick then
      var o := Loop(setup, run, stream[1..]);
      o.(consumed := o.consumed + 1)
    else
      var tr := Step(setup, run, stream[0]);
      if tr.status != Running then
        Outcome(tr.status, tr.run, 1)
      else
        var o := Loop(setup, tr.run, stream[1..]);
        o.(consumed := o.consumed + 1)
  }

  /** The samples the loop accepts from a stream when the last accepted tick
      was `tick`: a read with the same tick is still inside the busy-wait. */
  function Accepted(tick: uint32, stream: seq<Read>): (s: seq<uint32>)
    ensures |s| <= |stream|
    decreases |stream|
  {
    if stream == [] then []
    else if stream[0].tick == tick then Accepted(tick, stream[1..])
    else [stream[0].sample] + Accepted(stream[0].tick, stream[1..])
  }

  /** The samples the loop accepted before it stopped. */
  function Taken(setup: Setup, run: Run, stream: seq<Read>): seq<uint32>
    requires setup.Valid() && run.Valid(setup)
  {
    Accepted(run.tick, stream[..Loop(setup, run, stream).consumed])
  }

  lemma PrefixTail(stream: seq<Read>, c: nat)
    requires 0 < c <= |stream|
    ensures stream[..c][1..] == stream[1..][..c - 1] && stream[..c][0] == stream[0]
  {
  }

  /** Every accepted sample goes into the ring, in order: after the loop the
      ring is the starting ring with the accepted samples written. */
  lemma {:induction false} LoopFillsRing(setup: Setup, run: Run, stream: seq<Read>)
    requires setup.Valid() && run.Valid(setup)
    ensures Loop(setup, run, stream).run.ring == Ring.Fill(run.ring, Taken(setup, run, stream))
    decreases |stream|
  {
    var o := Loop(setup, run, stream);
    if stream == [] {
      assert stream[..0] == [];
    } else {
      PrefixTail(stream, o.consumed);
      if stream[0].tick == run.tick {
        LoopFillsRing(setup, run, stream[1..]);
      } else {
        var tr := Step(setup, run, stream[0]);
        if tr.status != Running {
          Ring.FillCons(run.ring, stream[0].sample, []);
        } else {
          LoopFillsRing(setup, tr.run, stream[1..]);
          Ring.FillCons(run.ring, stream[0].sample, Taken(setup, tr.run, stream[1..]));
        }
      }
    }
  }

  /** `overruns` counts the ticks no sample was taken at: it grows by the
      ticks elapsed minus the samples accepted, modulo 2^32. */
  lemma {:induction false} LoopCountsOverruns(setup: Setup, run: Run, stream: seq<Read>)
    requires setup.Valid() && run.Valid(setup)
    ensures var o := Loop(setup, run, stream);
      o.run.overruns == Wrap(run.overruns + (o.run.tick - run.tick) - |Taken(setup, run, stream)|)
    decreases |stream|
  {
    var o := Loop(setup, run, stream);
    if stream == [] {
      assert stream[..0] == [];
    } else {
      PrefixTail(stream, o.consumed);
      if stream[0].tick == run.tick {
        LoopCountsOverruns(setup, run, stream[1..]);
      } else {
        var tr := Step(setup, run, stream[0]);
        if tr.status == Running {
          LoopCountsOverruns(setup, tr.run, stream[1..]);
          var a := run.overruns + stream[0].tick - run.tick - 1;
          Arith.ModAddLeft(a, o.run.tick - stream[0].tick - |Taken(setup, tr.run, stream[1..])|, TWO_TO_THE_32);
        }
      }
    }
  }

  /** Three ticks after the last accepted one, the loop has missed two. */
  lemma OverrunExample(setup: Setup, run: Run, sample: uint32)
    requires setup.Valid() && run.Valid(setup) && run.tick == 100 && run.overruns == 0
    ensures Step(setup, run, Read(103, sample)).run.overruns == 2
  {
  }

  /** The loop stops for a reason: it aborts only at the abort tick while a
      trigger is still being matched, and it completes only once armed. */
  lemma {:induction false} LoopEnds(setup: Setup, run: Run, stream: seq<Read>)
    requires setup.Valid() && run.Valid(setup)
    ensures var o := Loop(setup, run, stream);
      (o.status == Aborted ==> o.run.tick == setup.abortTime && o.run.phase.Matching?) &&
      (o.status == Completed ==> o.run.phase == Armed)
    decreases |stream|
  {
    if stream != [] {
      if stream[0].tick == run.tick {
        LoopEnds(setup, run, stream[1..]);
      } else {
        var tr := Step(setup, run, stream[0]);
        if tr.status == Running {
          LoopEnds(setup, tr.run, stream[1..]);
        }
      }
    }
  }

  /** The accepted samples still owed before the loop can break out: the
      remaining pre-trigger samples, then at least one post-trigger one. */
  function Need(run: Run): nat {
    (if run.pre > 0 then run.pre else 0) + (if run.post > 1 then run.post else 1)
  }

  /** A capture never completes before it has accepted the remaining
      pre-trigger and post-trigger samples. */
  lemma {:induction false} CompletionNeedsSamples(setup: Setup, run: Run, stream: seq<Read>)
    requires setup.Valid() && run.Valid(setup)
    ensures Loop(setup, run, stream).status == Completed ==> |Taken(setup, run, stream)| >= Need(run)
    decreases |stream|
  {
    var o := Loop(setup, run, stream);
    if stream != [] && o.status == Completed {
      PrefixTail(stream, o.consumed);
      if stream[0].tick == run.tick {
        CompletionNeedsSamples(setup, run, stream[1..]);
      } else {
        var tr := Step(setup, run, stream[0]);
        if tr.status == Running {
          CompletionNeedsSamples(setup, tr.run, stream[1..]);
        }
      }
    }
  }

  /** With no trigger (or once armed) the capture never aborts, and it
      completes exactly when the stream offers `Need` samples, after taking
      exactly that many. */
  lemma {:induction false} ArmedCapture(setup: Setup, run: Run, stream: seq<Read>)
    requires setup.Valid() && run.Valid(setup) && run.phase == Armed
    ensures var o := Loop(setup, run, stream);
      && o.status != Aborted
      && (o.status == Completed <==> |Accepted(run.tick, stream)| >= Need(run))
      && (o.status == Completed ==> |Taken(setup, run, stream)| == Need(run))
    decreases |stream|
  {
    var o := Loop(setup, run, stream);
    if stream != [] {
      PrefixTail(stream, o.consumed);
      if stream[0].tick == run.tick {
        ArmedCapture(setup, run, stream[1..]);
      } else {
        var tr := Step(setup, run, stream[0]);
        if tr.status == Running {
          ArmedCapture(setup, tr.run, stream[1..]);
          assert Need(tr.run) == Need(run) - 1;
        } else {
          assert stream[..1] == [stream[0]];
        }
      }
    }
  }

  /** An untriggered capture of `n` samples completes after exactly `n` accepted samples, or `n + 1` when the
      post-trigger count rounds down to 0. */
  lemma UntriggeredCapture(ctl: PanCtl, start: uint32, stream: seq<Read>)
    requires ctl.Valid() && 0 < ctl.numSamples < 0x8000_0000 && ctl.trigger[0].enabled == 0
    ensures var (setup, run) := Begin(ctl, start);
      var o := Loop(setup, run, stream);
      var n := ctl.numSamples + (if PostTrigger(ctl.numSamples, ctl.triggerPoint) == 0 then 1 else 0);
      && o.status != Aborted
      && (o.status == Completed <==> |Accepted(start, stream)| >= n)
      && (o.status == Completed ==> |Taken(setup, run, stream)| == n)
  {
    var (setup, run) := Begin(ctl, start);
    SplitSum(ctl.numSamples, ctl.triggerPoint);
    ArmedCapture(setup, run, stream);
  }

  /** What the device shows after a capture from a fresh buffer: read from
      `first_data_index` (the final cursor), the buffer is exactly the last
      `n` accepted samples, oldest first, and `first_data_index` is the
      number of accepted samples modulo `n`. */
  lemma CompletedCaptureWindow(ctl: PanCtl, start: uint32, stream: seq<Read>)
    requires ctl.Valid() && 0 < ctl.numSamples < 0x8000_0000
    ensures var (setup, run) := Begin(ctl, start);
      var o := Loop(setup, run, stream);
      var taken := Taken(setup, run, stream);
      var n := ctl.numSamples;
      && o.run.ring.cursor == |taken| % n
      && (o.status == Completed ==>
            |taken| >= n && Ring.Window(o.run.ring) == taken[|taken| - n..])
  {
    var (setup, run) := Begin(ctl, start);
    var taken := Taken(setup, run, stream);
    SplitSum(ctl.numSamples, ctl.triggerPoint);
    LoopFillsRing(setup, run, stream);
    Ring.FillFresh(ctl.numSamples, taken);
    CompletionNeedsSamples(setup, run, stream);
  }

  /** The stage logic over successive samples, until it arms. */
  function Feed(setup: Setup, state: nat, dwell: int, samples: seq<uint32>): (v: Verdict)
    requires setup.Valid() && state as int <= setup.last
    ensures v.Stay? ==> v.stage as int <= setup.last
    decreases |samples|
  {
    if samples == [] then Stay(state, dwell)
    else match Recheck(setup, state, dwell, samples[0])
      case Arm => Arm
      case Stay(k, d) => Feed(setup, k, d, samples[1..])
  }

  /** Feeding `a` and then `b` is feeding `a + b`. */
  lemma {:induction false} FeedAppend(setup: Setup, state: nat, dwell: int, a: seq<uint32>, b: seq<uint32>)
    requires setup.Valid() && state as int <= setup.last
    ensures var v := Feed(setup, state, dwell, a);
      Feed(setup, state, dwell, a + b) == if v.Arm? then Arm else Feed(setup, v.stage, v.dwell, b)
    decreases |a|
  {
    if a == [] {
      assert a + b == b;
    } else {
      assert (a + b)[0] == a[0] && (a + b)[1..] == a[1..] + b;
      var v := Recheck(setup, state, dwell, a[0]);
      if v.Arm? {
        assert Feed(setup, state, dwell, a) == Arm;
        assert Feed(setup, state, dwell, a + b) == Arm;
      } else {
        assert Feed(setup, state, dwell, a) == Feed(setup, v.stage, v.dwell, a[1..]);
        assert Feed(setup, state, dwell, a + b) == Feed(setup, v.stage, v.dwell, a[1..] + b);
        FeedAppend(setup, v.stage, v.dwell, a[1..], b);
      }
    }
  }

  /** Once armed, the loop stays armed. */
  lemma {:induction false} ArmedStays(setup: Setup, run: Run, stream: seq<Read>)
    requires setup.Valid() && run.Valid(setup) && run.phase == Armed
    ensures Loop(setup, run, stream).run.phase == Armed
    decreases |stream|
  {
    if stream != [] {
      if stream[0].tick == run.tick {
        ArmedStays(setup, run, stream[1..]);
      } else {
        var tr := Step(setup, run, stream[0]);
        if tr.status == Running {
          ArmedStays(setup, tr.run, stream[1..]);
        }
      }
    }
  }

  /** Past the pre-trigger fill, and while no read falls on the abort tick,
      the capture loop runs the stage logic over the accepted samples: it
      never aborts, it is armed at the end exactly when `Feed` arms over the
      accepted samples, and otherwise it ends at `Feed`'s stage and dwell. */
  lemma {:induction false} LoopFeeds(setup: Setup, run: Run, stream: seq<Read>)
    requires setup.Valid() && run.Valid(setup) && run.pre <= 0 && run.phase.Matching?
    requires forall i :: 0 <= i < |stream| ==> stream[i].tick != setup.abortTime
    ensures var o := Loop(setup, run, stream);
      var v := Feed(setup, run.phase.stage, run.dwell, Accepted(run.tick, stream));
      && o.status != Aborted
      && (v.Arm? <==> o.run.phase == Armed)
      && (v.Stay? ==> o.status == Running && o.run.phase == Matching(v.stage) && o.run.dwell == v.dwell)
    decreases |stream|
  {
    if stream != [] {
      if stream[0].tick == run.tick {
        LoopFeeds(setup, run, stream[1..]);
      } else {
        var tr := Step(setup, run, stream[0]);
        var rest := Accepted(stream[0].tick, stream[1..]);
        assert Accepted(run.tick, stream) == [stream[0].sample] + rest;
        assert ([stream[0].sample] + rest)[1..] == rest;
        match Recheck(setup, run.phase.stage, run.dwell, stream[0].sample)
        case Arm =>
          ArmedStays(setup, tr.run, stream[1..]);
          ArmedCapture(setup, tr.run, stream[1..]);
        case Stay(k, d) =>
          LoopFeeds(setup, tr.run, stream[1..]);
      }
    }
  }

  /** At the last stage the dwell counts down by one per matching sample. */
  lemma {:induction false} DwellCountsDown(setup: Setup, dwell: nat, samples: seq<uint32>)
    requires setup.Valid() && setup.last >= 0 && |samples| <= dwell
    requires forall i :: 0 <= i < |samples| ==> Matches(setup.trigger[setup.last], samples[i])
    ensures Feed(setup, setup.last as nat, dwell, samples) == Stay(setup.last as nat, dwell - |samples|)
    decreases |samples|
  {
    if samples != [] {
      DwellCountsDown(setup, dwell - 1, samples[1..]);
    }
  }

  /** The last stage, entered with a dwell of `d`, stays un-armed through `d`
      matching samples and arms on the next sample, whether or not that one
      matches. */
  lemma LastStageArms(setup: Setup, d: nat, samples: seq<uint32>, next: uint32)
    requires setup.Valid() && setup.last >= 0 && |samples| == d
    requires forall i :: 0 <= i < |samples| ==> Matches(setup.trigger[setup.last], samples[i])
    ensures forall i :: 0 <= i <= d ==>
      Feed(setup, setup.last as nat, d, samples[..i]) == Stay(setup.last as nat, d - i)
    ensures Feed(setup, setup.last as nat, d, samples + [next]) == Arm
  {
    forall i | 0 <= i <= d
      ensures Feed(setup, setup.last as nat, d, samples[..i]) == Stay(setup.last as nat, d - i)
    {
      DwellCountsDown(setup, d, samples[..i]);
    }
    DwellCountsDown(setup, d, samples);
    FeedAppend(setup, setup.last as nat, d, samples, [next]);
  }

  /** The stage logic is stuck before stage `j`, or at stage `j` with a
      negative dwell that can never count down to 0. */
  ghost predicate StuckBefore(j: nat, state: nat, dwell: int) {
    state < j || (state == j && dwell < 0)
  }

  /** When a later stage `j` has `min_samples` 0, entering it leaves a dwell
      of -2, which only decreases: the stage logic never gets past `j`. */
  lemma {:induction false} RecheckStuck(setup: Setup, j: nat, state: nat, dwell: int, sample: uint32)
    requires setup.Valid() && 0 < j as int <= setup.last && setup.trigger[j].minSamples == 0
    requires state as int <= setup.last && StuckBefore(j, state, dwell)
    ensures var v := Recheck(setup, state, dwell, sample);
      v.Stay? && StuckBefore(j, v.stage, v.dwell)
    decreases setup.last - state as int
  {
    if dwell == 0 && state as int != setup.last && Matches(setup.trigger[state + 1], sample) {
      var next := state + 1;
      var d := ToInt32(Wrap(setup.trigger[next].minSamples - 1));
      if next == j {
        assert Wrap(-1) == TWO_TO_THE_32 - 1;
        assert d == -1;
      }
      RecheckStuck(setup, j, next, d, sample);
      assert Recheck(setup, state, dwell, sample) == Recheck(setup, next, d, sample);
    }
  }

  /** A trigger chain with a later stage of `min_samples` 0 never arms. */
  lemma {:induction false} FeedStuck(setup: Setup, j: nat, state: nat, dwell: int, samples: seq<uint32>)
    requires setup.Valid() && 0 < j as int <= setup.last && setup.trigger[j].minSamples == 0
    requires state as int <= setup.last && StuckBefore(j, state, dwell)
    ensures Feed(setup, state, dwell, samples).Stay?
    decreases |samples|
  {
    if samples != [] {
      RecheckStuck(setup, j, state, dwell, samples[0]);
      var v := Recheck(setup, state, dwell, samples[0]);
      FeedStuck(setup, j, v.stage, v.dwell, samples[1..]);
    }
  }

  /** ... so such a capture never completes: it ends by abort or not at all. */
  lemma {:induction false} StuckCaptureNeverCompletes(setup: Setup, j: nat, run: Run, stream: seq<Read>)
    requires setup.Valid() && 0 < j as int <= setup.last && setup.trigger[j].minSamples == 0
    requires run.Valid(setup) && run.phase.Matching? && StuckBefore(j, run.phase.stage, run.dwell)
    ensures Loop(setup, run, stream).status != Completed
    decreases |stream|
  {
    if stream != [] {
      if stream[0].tick == run.tick {
        StuckCaptureNeverCompletes(setup, j, run, stream[1..]);
      } else {
        var tr := Step(setup, run, stream[0]);
        if run.pre <= 0 && stream[0].tick != setup.abortTime {
          RecheckStuck(setup, j, run.phase.stage, run.dwell, stream[0].sample);
        }
        if tr.status == Running {
          StuckCaptureNeverCompletes(setup, j, tr.run, stream[1..]);
        }
      }
    }
  }
}

=== FILE: device.dfy ===
/**
  The character device of pandriver.c: `dev_open`, `dev_read`, `dev_write`,
  `dev_llseek` and `dev_close` over the driver's globals (the control block,
  the sample buffer and `first_data_index`). The device's file is the
  header's byte image followed by the sample buffer read from the oldest
  sample; the first read after the buffer is freed allocates it and runs
  the capture.

  The hardware the read touches is a parameter: whether the buffer
  allocation succeeds, the tick at which capture starts, and the stream of
  tick/sample reads the capture loop sees.
 */
module Device {
  import opened Layout
  import Ring
  import Capture

  /** The sample buffer: freed (`buffer == NULL`) or holding `num_samples` words. */
  datatype Buffer = Unallocated | Allocated(words: seq<uint32>)

  /** The driver's globals. */
  datatype Device = Device(ctl: PanCtl, buffer: Buffer, firstDataIndex: uint32)
  {
    /** The buffer, when there is one, was allocated for the current header,
        and the 32-bit size of the device's file does not wrap. */
    ghost predicate Valid() {
      && ctl.Valid()
      && Fits(ctl)
      && (buffer.Allocated? ==> 0 < |buffer.words| == ctl.numSamples)
    }

    /** There is a buffer to read from, and `first_data_index` lies inside it. */
    ghost predicate Servable() {
      Valid() && buffer.Allocated? && firstDataIndex < ctl.numSamples
    }
  }

  datatype Errno = EINVAL | EFAULT | EINTR

  /** What a call returns: bytes read, a byte count written or an offset,
      an error, or (for a read whose capture outlasts the modelled reads of
      the hardware) nothing yet. */
  datatype Reply = Bytes(data: seq<byte>) | Count(n: nat) | Fail(err: Errno) | Spinning

  /** The device after a call, the file position after it, and the reply. */
  datatype Answer = Answer(dev: Device, fpos: nat, reply: Reply)

  /** What the capture sees: whether `vmalloc` succeeds, the tick when the
      loop starts, and the hardware reads. */
  datatype Hardware = Hardware(allocOk: bool, start: uint32, stream: seq<Capture.Read>)

  /** The header plus `num_samples` words fit in 32 bits. */
  predicate Fits(ctl: PanCtl) {
    HEADER_BYTES + 4 * ctl.numSamples < TWO_TO_THE_32
  }

  /** `sizeof(panctl_t) + num_samples * sizeof(uint32_t)` in `size_t`
      arithmetic: the size of the device's file. */
  function FileSize(ctl: PanCtl): uint32 {
    Wrap(HEADER_BYTES + Wrap(4 * ctl.numSamples))
  }

  /** When it fits, the file is the 92-byte header and 4 bytes per sample. */
  lemma FileSizeFits(ctl: PanCtl)
    requires Fits(ctl)
    ensures FileSize(ctl) == HEADER_BYTES + 4 * ctl.numSamples
  {
    HeaderSize();
  }

  /** The device's file: the header image, then the samples oldest first. */
  function FileImage(dev: Device): (img: seq<byte>)
    requires dev.Servable()
    ensures |img| == HEADER_BYTES + 4 * dev.ctl.numSamples
  {
    HeaderImage(dev.ctl) + WordBytes(Ring.Linearize(dev.buffer.words, dev.firstDataIndex))
  }

  /** `dev_open`: the header is reset to the defaults; an existing buffer and
      `first_data_index` are kept. */
  function Open(dev: Device): (d: Device)
    ensures d.ctl == DEF_PANCTL && d.buffer == dev.buffer && d.firstDataIndex == dev.firstDataIndex
  {
    dev.(ctl := DEF_PANCTL)
  }

  /** `dev_close`: the buffer is freed, so the next read captures again. */
  function Close(dev: Device): (d: Device)
    ensures d.buffer == Unallocated && d.ctl == dev.ctl && d.firstDataIndex == dev.firstDataIndex
  {
    dev.(buffer := Unallocated)
  }

  /** `dev_llseek`: only `SEEK_SET` to an offset inside the file is allowed,
      and the file position becomes that offset. */
  function Llseek(dev: Device, fpos: nat, off: int, whence: int): (a: Answer)
    ensures a.dev == dev
    ensures a.reply.Count? <==> whence == SEEK_SET && 0 <= off < FileSize(dev.ctl)
    ensures a.reply.Count? ==> a.fpos == off == a.reply.n
    ensures !a.reply.Count? ==> a.reply == Fail(EINVAL) && a.fpos == fpos
  {
    if whence == SEEK_SET && off >= 0 && off < FileSize(dev.ctl) then
      Answer(dev, off, Count(off))
    else
      Answer(dev, fpos, Fail(EINVAL))
  }

  const SEEK_SET: int := 0

  /** How many header bytes a read or write at `fpos` transfers, as the
      driver computes it: everything to the end of the header, whatever the
      caller's `count`. */
  function HeaderSpanAsWritten(count: nat, fpos: nat): (k: nat)
    requires fpos < HEADER_BYTES
    ensures 0 < k && fpos + k == HEADER_BYTES
  {
    HEADER_BYTES - fpos
  }

  /** The transfer as intended: up to the end of the header, and no more
      than `count` bytes. */
  function HeaderSpan(count: nat, fpos: nat): (k: nat)
    requires fpos < HEADER_BYTES
    ensures k <= count && fpos + k <= HEADER_BYTES
    ensures k == count || fpos + k == HEADER_BYTES
    ensures count >= HEADER_BYTES - fpos ==> k == HeaderSpanAsWritten(count, fpos)
  {
    if count < HEADER_BYTES - fpos then count else HEADER_BYTES - fpos
  }

  /** Where a data read at offset `index` of the data region starts in the
      physical buffer and how many bytes it returns: the sample at
      `first_data_index` comes first, and a read stops at the physical end
      of the buffer or, once wrapped, at `first_data_index`. */
  function DataWindow(n: nat, fdi: nat, index: nat, count: nat): (w: (nat, nat))
    requires fdi < n && index < 4 * n
    ensures w.1 <= count && w.1 <= 4 * n - index
    ensures count > 0 ==> w.1 > 0
    ensures 4 * fdi + index < 4 * n ==> w.0 == 4 * fdi + index && w.0 + w.1 <= 4 * n
    ensures 4 * fdi + index >= 4 * n ==> w.0 == 4 * fdi + index - 4 * n && w.0 + w.1 <= 4 * fdi
  {
    var p := 4 * fdi + index;
    if p >= 4 * n then
      var q := p - 4 * n;
      (q, if count > 4 * fdi - q then 4 * fdi - q else count)
    else
      (p, if count > 4 * n - p then 4 * n - p else count)
  }

  /** The linearized buffer's bytes are the physical bytes rotated to start
      at byte `4 * first`. */
  lemma RotatedBytes(buf: seq<uint32>, first: nat)
    requires first < |buf|
    ensures WordBytes(Ring.Linearize(buf, first)) ==
      WordBytes(buf)[4 * first..] + WordBytes(buf)[..4 * first]
  {
    WordBytesAppend(buf[first..], buf[..first]);
    WordBytesAppend(buf[..first], buf[first..]);
    assert buf == buf[..first] + buf[first..];
  }

  /** The bytes a read at `fpos` returns once the buffer holds a capture:
      header bytes before the data region, buffer bytes after it. A header
      read returns the rest of the header whatever `count` is. */
  function Serve(dev: Device, fpos: nat, count: nat): (bs: seq<byte>)
    requires dev.Servable()
    ensures fpos >= FileSize(dev.ctl) ==> bs == []
    ensures fpos < FileSize(dev.ctl) ==>
      fpos + |bs| <= FileSize(dev.ctl) && bs == FileImage(dev)[fpos..fpos + |bs|]
    ensures fpos < HEADER_BYTES ==> |bs| == HEADER_BYTES - fpos
    ensures fpos >= HEADER_BYTES ==> |bs| <= count
    ensures HEADER_BYTES <= fpos < FileSize(dev.ctl) && count > 0 ==> |bs| > 0
  {
    FileSizeFits(dev.ctl);
    if fpos >= FileSize(dev.ctl) then
      []
    else if fpos < HEADER_BYTES then
      var k := HeaderSpanAsWritten(count, fpos);
      HeaderBytes(dev, fpos, k)
    else
      DataBytes(dev, fpos - HEADER_BYTES, count)
  }

  /** A read as intended: a header read stops after `count` bytes too. */
  function ServeCorrected(dev: Device, fpos: nat, count: nat): (bs: seq<byte>)
    requires dev.Servable()
    ensures |bs| <= count
    ensures fpos >= FileSize(dev.ctl) ==> bs == []
    ensures fpos < FileSize(dev.ctl) ==>
      fpos + |bs| <= FileSize(dev.ctl) && bs == FileImage(dev)[fpos..fpos + |bs|]
    ensures fpos < FileSize(dev.ctl) && count > 0 ==> |bs| > 0
    ensures fpos < HEADER_BYTES ==> |bs| == HeaderSpan(count, fpos)
  {
    FileSizeFits(dev.ctl);
    if fpos >= FileSize(dev.ctl) then
      []
    else if fpos < HEADER_BYTES then
      var k := HeaderSpan(count, fpos);
      HeaderBytes(dev, fpos, k)
    else
      DataBytes(dev, fpos - HEADER_BYTES, count)
  }

  /** The intended read returns a prefix of what the driver returns, and the
      same bytes whenever the caller asked for at least the rest of the
      header or reads past it. */
  lemma ServeCorrectedPrefix(dev: Device, fpos: nat, count: nat)
    requires dev.Servable()
    ensures var c, w := ServeCorrected(dev, fpos, count), Serve(dev, fpos, count);
      && |c| <= |w| && c == w[..|c|]
      && (fpos >= HEADER_BYTES || count >= HEADER_BYTES - fpos <==> c == w)
  {
    FileSizeFits(dev.ctl);
  }

  /** As written, a 4-byte read at offset 0 returns all 92 header bytes:
      more than the caller's buffer holds. */
  lemma ReadOverruns(dev: Device, hw: Hardware)
    requires dev.Servable() && dev.ctl.magic == PAN_MAGIC
    ensures var a := Read(dev, 0, 4, hw);
      && a.reply.Bytes? && |a.reply.data| == HEADER_BYTES > 4 && a.fpos == HEADER_BYTES
      && |Bytes(ServeCorrected(dev, 0, 4)).data| == 4
  {
    HeaderSize();
    FileSizeFits(dev.ctl);
  }

  /** `k` bytes of the header image from `fpos` on: the file's bytes there. */
  function HeaderBytes(dev: Device, fpos: nat, k: nat): (bs: seq<byte>)
    requires dev.Servable() && fpos + k <= HEADER_BYTES
    ensures |bs| == k && fpos + k <= |FileImage(dev)|
    ensures bs == FileImage(dev)[fpos..fpos + k]
  {
    var h := HeaderImage(dev.ctl);
    SliceBefore(h, WordBytes(Ring.Linearize(dev.buffer.words, dev.firstDataIndex)), fpos, fpos + k);
    h[fpos..fpos + k]
  }

  lemma SliceBefore(h: seq<byte>, r: seq<byte>, a: nat, b: nat)
    requires a <= b <= |h|
    ensures (h + r)[a..b] == h[a..b]
  {
  }

  lemma SliceAfter(h: seq<byte>, r: seq<byte>, a: nat, b: nat)
    requires |h| <= a <= b <= |h| + |r|
    ensures (h + r)[a..b] == r[a - |h|..b - |h|]
  {
  }

  /** The window a data read returns from the physical bytes `phys` is the
      matching stretch of `phys` rotated to start at `first_data_index`. */
  lemma WindowOfRotation(phys: seq<byte>, n: nat, fdi: nat, index: nat, count: nat)
    requires |phys| == 4 * n && fdi < n && index < 4 * n
    ensures var w := DataWindow(n, fdi, index, count);
      && w.0 + w.1 <= |phys| && index + w.1 <= |phys|
      && phys[w.0..w.0 + w.1] == (phys[4 * fdi..] + phys[..4 * fdi])[index..index + w.1]
  {
    var w := DataWindow(n, fdi, index, count);
    var rot := phys[4 * fdi..] + phys[..4 * fdi];
    forall j | w.0 <= j < w.0 + w.1 ensures phys[j] == rot[j - w.0 + index] {
      if 4 * fdi + index < 4 * n {
        assert rot[j - w.0 + index] == phys[j];
      } else {
        assert rot[j - w.0 + index] == phys[j - w.0 + index - (4 * n - 4 * fdi)];
      }
    }
  }

  /** A read inside the data region, at offset `index` of it: the bytes of
      the physical buffer in the window `DataWindow` picks, which are the
      next bytes of the device's file. */
  function DataBytes(dev: Device, index: nat, count: nat): (bs: seq<byte>)
    requires dev.Servable() && index < 4 * dev.ctl.numSamples
    ensures |bs| <= count && index + |bs| <= 4 * dev.ctl.numSamples
    ensures count > 0 ==> |bs| > 0
    ensures bs == FileImage(dev)[HEADER_BYTES + index..HEADER_BYTES + index + |bs|]
  {
    var w := DataWindow(dev.ctl.numSamples, dev.firstDataIndex, index, count);
    ServeData(dev, index, count);
    WordBytes(dev.buffer.words)[w.0..w.0 + w.1]
  }

  lemma ServeData(dev: Device, index: nat, count: nat)
    requires dev.Servable() && index < 4 * dev.ctl.numSamples
    ensures var w := DataWindow(dev.ctl.numSamples, dev.firstDataIndex, index, count);
      && w.0 + w.1 <= |WordBytes(dev.buffer.words)|
      && HEADER_BYTES + index + w.1 <= |FileImage(dev)|
      && WordBytes(dev.buffer.words)[w.0..w.0 + w.1] ==
           FileImage(dev)[HEADER_BYTES + index..HEADER_BYTES + index + w.1]
  {
    var buf, fdi := dev.buffer.words, dev.firstDataIndex;
    var phys := WordBytes(buf);
    var w := DataWindow(dev.ctl.numSamples, fdi, index, count);
    var h := HeaderImage(dev.ctl);
    var rot := phys[4 * fdi..] + phys[..4 * fdi];
    RotatedBytes(buf, fdi);
    WindowOfRotation(phys, dev.ctl.numSamples, fdi, index, count);
    SliceAfter(h, rot, HEADER_BYTES + index, HEADER_BYTES + index + w.1);
  }

  /** `dev_read`. A header without the magic number is refused. Without a
      buffer, one is allocated (a failed or zero-sized allocation is
      `EFAULT`) and the capture runs; an aborted capture is `EINTR` and
      leaves the buffer allocated with the previous `first_data_index`.
      Otherwise the bytes at `fpos` are returned (`Serve`: a header read
      returns the rest of the header whatever `count` is), and the file
      position advances by their number. */
  function Read(dev: Device, fpos: nat, count: nat, hw: Hardware): (a: Answer)
    requires dev.Valid() && (dev.buffer.Allocated? ==> dev.Servable())
    ensures a.dev.Valid() && a.dev.ctl == dev.ctl
    ensures a.reply.Bytes? ==> a.dev.Servable()
    ensures a.reply == Fail(EINTR) ==>
      a.dev.buffer.Allocated? && a.dev.firstDataIndex == dev.firstDataIndex
    ensures dev.ctl.magic != PAN_MAGIC ==> a == Answer(dev, fpos, Fail(EINVAL))
    ensures dev.buffer.Allocated? && dev.ctl.magic == PAN_MAGIC ==>
      a == Answer(dev, fpos + |Serve(dev, fpos, count)|, Bytes(Serve(dev, fpos, count)))
    ensures a.reply.Bytes? ==> a.dev.buffer.Allocated? && a.fpos == fpos + |a.reply.data|
    ensures a.reply.Fail? ==> a.fpos == fpos
    ensures a.reply == Fail(EFAULT) <==>
      dev.ctl.magic == PAN_MAGIC && dev.buffer.Unallocated? && (dev.ctl.numSamples == 0 || !hw.allocOk)
    ensures a.reply == Fail(EFAULT) ==> a.dev == dev
  {
    if dev.ctl.magic != PAN_MAGIC then
      Answer(dev, fpos, Fail(EINVAL))
    else if dev.buffer.Allocated? then
      var bs := Serve(dev, fpos, count);
      Answer(dev, fpos + |bs|, Bytes(bs))
    else if dev.ctl.numSamples == 0 || !hw.allocOk then
      Answer(dev, fpos, Fail(EFAULT))
    else
      var (setup, run) := Capture.Begin(dev.ctl, hw.start);
      var o := Capture.Loop(setup, run, hw.stream);
      var filled := dev.(buffer := Allocated(o.run.ring.buf));
      match o.status
      case Aborted => Answer(filled, fpos, Fail(EINTR))
      case Running => Answer(filled, fpos, Spinning)
      case Completed =>
        var captured := filled.(firstDataIndex := o.run.ring.cursor);
        var bs := Serve(captured, fpos, count);
        Answer(captured, fpos + |bs|, Bytes(bs))
  }

  /** The header image with `src` written over it at `fpos`. */
  function Splice(image: seq<byte>, fpos: nat, src: seq<byte>): (r: seq<byte>)
    requires fpos + |src| <= |image|
    ensures |r| == |image|
    ensures r[fpos..fpos + |src|] == src
    ensures r[..fpos] == image[..fpos] && r[fpos + |src|..] == image[fpos + |src|..]
  {
    image[..fpos] + src + image[fpos + |src|..]
  }

  /** `dev_write`, with `src` the bytes readable at the caller's address.
      Past the header nothing is written. Otherwise the header bytes from
      `fpos` to the end of the header are copied in, whatever `count` is.
      Too few readable bytes is `EFAULT`, after the copy has stored what it
      could read and zeros for the rest. A header left without the magic
      number is refused with `EINVAL`, but stays written and the file
      position does not move. */
  function Write(dev: Device, fpos: nat, count: nat, src: seq<byte>): (a: Answer)
    requires dev.ctl.Valid()
    ensures a.dev.ctl.Valid()
    ensures a.dev.buffer == dev.buffer && a.dev.firstDataIndex == dev.firstDataIndex
    ensures fpos >= HEADER_BYTES ==> a == Answer(dev, fpos, Count(0))
    ensures fpos < HEADER_BYTES ==>
      var k := HEADER_BYTES - fpos;
      && HeaderImage(a.dev.ctl) == Splice(HeaderImage(dev.ctl), fpos, Copied(src, k))
      && (|src| < k ==> a.fpos == fpos && a.reply == Fail(EFAULT))
      && (|src| >= k && a.dev.ctl.magic == PAN_MAGIC ==> a.fpos == HEADER_BYTES && a.reply == Count(k))
      && (|src| >= k && a.dev.ctl.magic != PAN_MAGIC ==> a.fpos == fpos && a.reply == Fail(EINVAL))
  {
    if fpos >= HEADER_BYTES then
      Answer(dev, fpos, Count(0))
    else
      var k := HeaderSpanAsWritten(count, fpos);
      assert k == HEADER_BYTES - fpos;
      StoreHeader(dev, fpos, k, src)
  }

  /** What `copy_from_user` leaves in a `k`-byte destination: the readable
      bytes, and zeros where the source could not be read. */
  function Copied(src: seq<byte>, k: nat): (c: seq<byte>)
    ensures |c| == k
    ensures forall i :: 0 <= i < k ==> c[i] == if i < |src| then src[i] else 0
  {
    if |src| >= k then src[..k] else src + seq(k - |src|, _ => 0)
  }

  /** The copy into the header of `k` bytes at `fpos`, and the magic check
      after it. */
  function StoreHeader(dev: Device, fpos: nat, k: nat, src: seq<byte>): (a: Answer)
    requires dev.ctl.Valid() && fpos + k <= HEADER_BYTES
    ensures a.dev.ctl.Valid()
    ensures a.dev.buffer == dev.buffer && a.dev.firstDataIndex == dev.firstDataIndex
    ensures HeaderImage(a.dev.ctl) == Splice(HeaderImage(dev.ctl), fpos, Copied(src, k))
    ensures |src| < k ==> a.fpos == fpos && a.reply == Fail(EFAULT)
    ensures |src| >= k && a.dev.ctl.magic == PAN_MAGIC ==> a.fpos == fpos + k && a.reply == Count(k)
    ensures |src| >= k && a.dev.ctl.magic != PAN_MAGIC ==> a.fpos == fpos && a.reply == Fail(EINVAL)
  {
    var image := Splice(HeaderImage(dev.ctl), fpos, Copied(src, k));
    var ctl := ParseImage(image);
    ParseImageRoundTrip(image);
    var dev' := dev.(ctl := ctl);
    if |src| < k then
      Answer(dev', fpos, Fail(EFAULT))
    else if ctl.magic != PAN_MAGIC then
      Answer(dev', fpos, Fail(EINVAL))
    else
      Answer(dev', fpos + k, Count(k))
  }

  /** A write as intended: at most `count` header bytes are copied. */
  function WriteCorrected(dev: Device, fpos: nat, count: nat, src: seq<byte>): (a: Answer)
    requires dev.ctl.Valid()
    ensures a.dev.ctl.Valid()
    ensures a.dev.buffer == dev.buffer && a.dev.firstDataIndex == dev.firstDataIndex
    ensures fpos >= HEADER_BYTES ==> a == Answer(dev, fpos, Count(0))
    ensures fpos < HEADER_BYTES ==>
      var k := HeaderSpan(count, fpos);
      && k <= count
      && HeaderImage(a.dev.ctl) == Splice(HeaderImage(dev.ctl), fpos, Copied(src, k))
      && (|src| < k ==> a.fpos == fpos && a.reply == Fail(EFAULT))
      && (|src| >= k && a.dev.ctl.magic == PAN_MAGIC ==> a.fpos == fpos + k && a.reply == Count(k))
      && (|src| >= k && a.dev.ctl.magic != PAN_MAGIC ==> a.fpos == fpos && a.reply == Fail(EINVAL))
  {
    if fpos >= HEADER_BYTES then
      Answer(dev, fpos, Count(0))
    else
      StoreHeader(dev, fpos, HeaderSpan(count, fpos), src)
  }

  /** The intended write agrees with the driver whenever the caller writes
      at least the rest of the header or writes past it. */
  lemma WriteCorrectedAgrees(dev: Device, fpos: nat, count: nat, src: seq<byte>)
    requires dev.ctl.Valid()
    requires fpos >= HEADER_BYTES || count >= HEADER_BYTES - fpos
    ensures WriteCorrected(dev, fpos, count, src) == Write(dev, fpos, count, src)
  {
  }

  /** As written, a 4-byte write at offset 0 copies 92 bytes from the
      caller: with only the 4 bytes readable it is `EFAULT`, and the header
      is left as those 4 bytes followed by 88 zero bytes. The intended write
      does not fail with `EFAULT`: it stores the 4 bytes as the magic word
      and answers 4 if they are the magic number, `EINVAL` otherwise. */
  lemma WriteOverruns(dev: Device, src: seq<byte>)
    requires dev.ctl.Valid() && |src| == 4
    ensures var a := Write(dev, 0, 4, src);
      && a.reply == Fail(EFAULT)
      && HeaderImage(a.dev.ctl) == src + seq(HEADER_BYTES - 4, _ => 0)
    ensures var a := WriteCorrected(dev, 0, 4, src);
      && a.dev.ctl.magic == WordOf(src[0], src[1], src[2], src[3])
      && a.reply == (if WordOf(src[0], src[1], src[2], src[3]) == PAN_MAGIC then Count(4) else Fail(EINVAL))
  {
    HeaderSize();
    SpliceWhole(HeaderImage(dev.ctl), Copied(src, HEADER_BYTES));
    assert Copied(src, HEADER_BYTES) == src + seq(HEADER_BYTES - 4, _ => 0);
    assert Copied(src, 4) == src;
    SplicedMagic(HeaderImage(dev.ctl), src);
  }

  /** Four bytes written at offset 0 become the magic word. */
  lemma SplicedMagic(image: seq<byte>, src: seq<byte>)
    requires |image| == HEADER_BYTES && |src| == 4
    ensures ParseImage(Splice(image, 0, src)).magic == WordOf(src[0], src[1], src[2], src[3])
  {
    var spliced := Splice(image, 0, src);
    assert spliced[..4] == src;
    assert spliced[0] == src[0] && spliced[1] == src[1] && spliced[2] == src[2] && spliced[3] == src[3];
    assert ParseImage(spliced).magic == BytesWords(spliced)[0];
  }

  /** A reader that reads from offset 0 in `count`-byte reads until a read
      returns nothing gets the whole device file, whatever `count` is. */
  method ReadAll(dev: Device, count: nat) returns (data: seq<byte>)
    requires dev.Servable() && count > 0
    ensures data == FileImage(dev)
  {
    FileSizeFits(dev.ctl);
    ghost var img := FileImage(dev);
    assert |img| == FileSize(dev.ctl);
    var fpos: nat := 0;
    data := [];
    while true
      invariant fpos <= |img| && data == img[..fpos]
      decreases |img| - fpos
    {
      var bs := Serve(dev, fpos, count);
      if bs == [] {
        break;
      }
      PrefixExtend(img, fpos, bs);
      data := data + bs;
      fpos := fpos + |bs|;
    }
  }

  /** Appending the slice that starts where a prefix ends extends the prefix. */
  lemma PrefixExtend(img: seq<byte>, i: nat, bs: seq<byte>)
    requires i + |bs| <= |img| && bs == img[i..i + |bs|]
    ensures img[..i] + bs == img[..i + |bs|]
  {
  }

  /** A whole header written at offset 0 replaces the header; with the magic
      number it is accepted in full, whatever `count` the caller passed. */
  lemma WriteWholeHeader(dev: Device, count: nat, img: seq<byte>)
    requires dev.ctl.Valid() && |img| == HEADER_BYTES && ParseImage(img).magic == PAN_MAGIC
    ensures var w := Write(dev, 0, count, img);
      w == Answer(dev.(ctl := ParseImage(img)), HEADER_BYTES, Count(HEADER_BYTES))
  {
    assert img[..HEADER_BYTES] == img;
    SpliceWhole(HeaderImage(dev.ctl), img);
  }

  lemma SpliceWhole(image: seq<byte>, src: seq<byte>)
    requires |image| == |src|
    ensures Splice(image, 0, src) == src
  {
  }

  /** A successful read at offset 0 returns the whole header, whatever
      `count` the caller passed. */
  lemma ReadHeader(dev: Device, count: nat, hw: Hardware)
    requires dev.Valid() && (dev.buffer.Allocated? ==> dev.Servable())
    ensures var r := Read(dev, 0, count, hw);
      r.reply.Bytes? ==> r.reply.data == HeaderImage(dev.ctl) && r.fpos == HEADER_BYTES
  {
    var r := Read(dev, 0, count, hw);
    if r.reply.Bytes? {
      assert HeaderImage(dev.ctl)[0..HEADER_BYTES] == HeaderImage(dev.ctl);
    }
  }

  /** The usual session: close, open, write a whole header at offset 0 and
      read from offset 0. The write takes all 92 bytes; the first read
      captures into a fresh buffer, fails with `EFAULT` exactly when the
      allocation does, and when it returns data, returns exactly the
      header written. */
  lemma WriteThenRead(dev: Device, img: seq<byte>, wcount: nat, rcount: nat, hw: Hardware)
    requires dev.ctl.Valid() && |img| == HEADER_BYTES
    requires ParseImage(img).magic == PAN_MAGIC && Fits(ParseImage(img))
    ensures var w := Write(Open(Close(dev)), 0, wcount, img);
      && w.reply == Count(HEADER_BYTES) && w.fpos == HEADER_BYTES && w.dev.ctl == ParseImage(img)
      && w.dev.Valid() && w.dev.buffer.Unallocated?
      && var r := Read(w.dev, 0, rcount, hw);
         && (r.reply == Fail(EFAULT) <==> ParseImage(img).numSamples == 0 || !hw.allocOk)
         && (r.reply.Bytes? ==> r.reply.data == img && r.fpos == HEADER_BYTES)
  {
    DefaultHeader();
    var d := Open(Close(dev));
    WriteWholeHeader(d, wcount, img);
    var w := Write(d, 0, wcount, img);
    ReadHeader(w.dev, rcount, hw);
    ParseImageRoundTrip(img);
  }

  /** After the first read of a session, when the capture completed, the
      device's file is the header followed by the last `num_samples` samples
      the capture accepted, oldest first. */
  lemma CapturedFile(dev: Device, fpos: nat, count: nat, hw: Hardware)
    requires dev.Valid() && dev.buffer.Unallocated? && dev.ctl.magic == PAN_MAGIC
    ensures var a := Read(dev, fpos, count, hw);
      a.reply.Bytes? ==>
        var sr := Capture.Begin(dev.ctl, hw.start);
        var taken := Capture.Taken(sr.0, sr.1, hw.stream);
        && a.dev.Servable()
        && |taken| >= dev.ctl.numSamples
        && FileImage(a.dev) == HeaderImage(dev.ctl) + WordBytes(taken[|taken| - dev.ctl.numSamples..])
  {
    var a := Read(dev, fpos, count, hw);
    if a.reply.Bytes? {
      var (setup, run) := Capture.Begin(dev.ctl, hw.start);
      var o := Capture.Loop(setup, run, hw.stream);
      assert o.status.Completed?;
      assert a.dev == dev.(buffer := Allocated(o.run.ring.buf), firstDataIndex := o.run.ring.cursor);
      assert FileImage(a.dev) == HeaderImage(dev.ctl) + WordBytes(Ring.Window(o.run.ring));
      Capture.CompletedCaptureWindow(dev.ctl, hw.start, hw.stream);
    }
  }
}

=== FILE: dialog.dfy ===
/**
  The trigger dialog (Panalyzer.c): the three-way level buttons, the enable
  check boxes that stay a prefix, the min-samples entry that accepts only a
  positive decimal number, and the translation between the header's trigger
  stages and the dialog's rows in both directions.
 */
module Dialog {
  import opened Layout

  /** The label sequence a level button steps through: low, high, don't care. */
  const LEVELS: string := "01-"

  /** A level label: one of the characters of `LEVELS`. */
  predicate IsLevel(c: char) {
    c == '0' || c == '1' || c == '-'
  }

  lemma {:induction false} LevelsAreLabels(c: char)
    ensures IsLevel(c) <==> c in LEVELS
  {
  }

  /** Where `strchr("01-", c)` lands: the label's position, or the
      terminator's position for an empty label. */
  function LevelIndex(c: char): (i: nat)
    requires IsLevel(c) || c == '\0'
    ensures i <= |LEVELS|
    ensures i < |LEVELS| ==> LEVELS[i] == c
  {
    if c == '0' then 0 else if c == '1' then 1 else if c == '-' then 2 else 3
  }

  /** `do_level_select`: a click moves the button's label to the next one in
      the cycle. */
  function NextLabel(c: char): (d: char)
    requires IsLevel(c) || c == '\0'
    ensures IsLevel(d)
  {
    var i := LevelIndex(c) + 1;
    LEVELS[if i >= |LEVELS| then 0 else i]
  }

  /** Three clicks bring a label back, passing through the two other labels
      on the way; an empty label becomes "0". */
  lemma {:induction false} LabelCycle(c: char)
    requires IsLevel(c)
    ensures NextLabel(NextLabel(NextLabel(c))) == c
    ensures {c, NextLabel(c), NextLabel(NextLabel(c))} == {'0', '1', '-'}
    ensures NextLabel('\0') == '0'
  {
  }

  /** Enabled stages form a prefix of the trigger list. */
  predicate IsPrefix(e: seq<bool>) {
    forall j, k :: 0 <= j < k < |e| && e[k] ==> e[j]
  }

  /** `do_trig_enables`, run when box `t` has just been toggled. When it was
      switched on, every stage up to the highest enabled one is switched on;
      when it was switched off, every stage after the first disabled one is
      switched off. Either way the boxes end up a prefix, the toggled box
      keeps its state, and a prefix is left as it is. */
  method TrigEnables(e: seq<bool>, t: nat) returns (r: seq<bool>)
    requires |e| == MAX_TRIGGERS && t < |e|
    ensures |r| == |e|
    ensures e[t] ==> forall k :: 0 <= k < |r| ==> (r[k] <==> exists j :: k <= j < |e| && e[j])
    ensures !e[t] ==> forall k :: 0 <= k < |r| ==> (r[k] <==> forall j :: 0 <= j <= k ==> e[j])
    ensures IsPrefix(r) && r[t] == e[t]
    ensures IsPrefix(e) ==> r == e
  {
    r := e;
    if e[t] {
      var i: int := MAX_TRIGGERS - 1;
      while i >= 0 && !r[i]
        invariant -1 <= i < MAX_TRIGGERS && r == e
        invariant forall j :: i < j < |e| ==> !e[j]
        decreases i
      {
        i := i - 1;
      }
      ghost var top := i;
      assert 0 <= top && e[top];
      i := i - 1;
      while i >= 0
        invariant -1 <= i < top && |r| == |e|
        invariant forall k :: 0 <= k <= i ==> r[k] == e[k]
        invariant forall k :: i < k <= top ==> r[k]
        invariant forall k :: top < k < |e| ==> r[k] == e[k] == false
        decreases i
      {
        r := r[i := true];
        i := i - 1;
      }
    } else {
      var i := 0;
      while i < MAX_TRIGGERS && r[i]
        invariant 0 <= i <= MAX_TRIGGERS && r == e
        invariant forall j :: 0 <= j < i ==> e[j]
      {
        i := i + 1;
      }
      ghost var first := i;
      assert first < MAX_TRIGGERS && !e[first];
      i := i + 1;
      while i < MAX_TRIGGERS
        invariant first < i <= MAX_TRIGGERS && |r| == |e|
        invariant forall k :: 0 <= k <= first ==> r[k] == e[k]
        invariant forall k :: first < k < i ==> !r[k]
        invariant forall k :: i <= k < |e| ==> r[k] == e[k]
      {
        r := r[i := false];
        i := i + 1;
      }
    }
  }

  predicate IsDigit(c: char) {
    '0' <= c <= '9'
  }

  predicate AllDigits(s: string) {
    forall i :: 0 <= i < |s| ==> IsDigit(s[i])
  }

  /** The digits of `s`, in order. */
  function Digits(s: string): (d: string)
    ensures AllDigits(d) && |d| <= |s|
  {
    if s == [] then []
    else if IsDigit(s[|s| - 1]) then Digits(s[..|s| - 1]) + [s[|s| - 1]]
    else Digits(s[..|s| - 1])
  }

  /** `s` without its leading zeros. */
  function StripZeros(s: string): (z: string)
    ensures |z| <= |s|
    ensures z != [] ==> z[0] != '0'
    ensures AllDigits(s) ==> AllDigits(z)
  {
    if s == [] || s[0] != '0' then s else StripZeros(s[1..])
  }

  /** What the min-samples entry keeps of a text: of its first seven
      bytes, the digits, with leading zeros dropped. */
  function Filtered(s: string): string {
    StripZeros(Digits(s[..if |s| < 7 then |s| else 7]))
  }

  /** A valid min-samples text: up to seven digits, no leading zero. */
  predicate Canonical(s: string) {
    |s| <= 7 && AllDigits(s) && (s != [] ==> s[0] != '0')
  }

  /** `do_trig_samples`, run whenever the entry's text changes: one pass over
      the first seven bytes keeping the digits, skipping zeros while nothing
      has been kept yet. `text` is what `gtk_entry_get_text` returns: the
      entry's UTF-8 bytes (`Utf8`), one `char` per byte, as a C string that
      holds no NUL character. */
  method TrigSamples(text: string) returns (kept: string)
    requires forall i :: 0 <= i < |text| ==> text[i] != '\0'
    ensures kept == Filtered(text)
    ensures Canonical(kept)
  {
    var w := text[..if |text| < 7 then |text| else 7];
    kept := [];
    var i := 0;
    while i < 7 && i < |text|
      invariant 0 <= i <= |w| && kept == StripZeros(Digits(w[..i]))
    {
      assert w[..i + 1][..i] == w[..i];
      StripZerosSnoc(Digits(w[..i]), text[i]);
      if kept == [] && text[i] == '0' {
      } else if IsDigit(text[i]) {
        kept := kept + [text[i]];
      }
      i := i + 1;
    }
    assert w[..i] == w;
    FilteredCanonical(text);
  }

  lemma {:induction false} StripZerosSnoc(d: string, c: char)
    ensures StripZeros(d + [c]) == if StripZeros(d) == [] && c == '0' then [] else StripZeros(d) + [c]
    decreases |d|
  {
    if d == [] {
      assert [c][1..] == [];
    } else if d[0] != '0' {
      assert (d + [c])[0] == d[0];
    } else {
      StripZerosSnoc(d[1..], c);
      assert (d + [c])[1..] == d[1..] + [c];
    }
  }

  lemma {:induction false} FilteredCanonical(s: string)
    ensures Canonical(Filtered(s))
  {
  }

  lemma {:induction false} DigitsOfDigits(s: string)
    requires AllDigits(s)
    ensures Digits(s) == s
    decreases |s|
  {
    if s != [] {
      DigitsOfDigits(s[..|s| - 1]);
      assert s[..|s| - 1] + [s[|s| - 1]] == s;
    }
  }

  /** The filter leaves a text unchanged exactly when the text is already a
      valid min-samples text. */
  lemma {:induction false} FilteredFixed(s: string)
    ensures Filtered(s) == s <==> Canonical(s)
  {
    if Canonical(s) {
      assert s[..|s|] == s;
      DigitsOfDigits(s);
    }
  }

  /** Filtering twice is filtering once, so the handler, which runs again
      when it sets the entry's text, changes nothing the second time. */
  lemma {:induction false} FilteredIdempotent(s: string)
    ensures Filtered(Filtered(s)) == Filtered(s)
  {
    FilteredCanonical(s);
    FilteredFixed(Filtered(s));
  }

  /** A byte as the `char` that stands for it in a byte text. */
  function ByteChar(b: nat): (c: char)
    requires b < 256
    ensures c as int == b
  {
    b as char
  }

  /** The UTF-8 encoding of one character, one `char` per byte. */
  function Utf8Char(c: char): (b: string)
    ensures 1 <= |b| <= 4
    ensures forall i :: 0 <= i < |b| ==> b[i] as int < 256
    ensures c as int < 0x80 ==> b == [c]
    ensures c as int >= 0x80 ==> forall i :: 0 <= i < |b| ==> b[i] as int >= 0x80
  {
    var x := c as int;
    if x < 0x80 then [c]
    else if x < 0x800 then [ByteChar(0xC0 + x / 0x40), ByteChar(0x80 + x % 0x40)]
    else if x < 0x1_0000 then
      [ByteChar(0xE0 + x / 0x1000), ByteChar(0x80 + x / 0x40 % 0x40), ByteChar(0x80 + x % 0x40)]
    else
      [ByteChar(0xF0 + x / 0x4_0000), ByteChar(0x80 + x / 0x1000 % 0x40),
       ByteChar(0x80 + x / 0x40 % 0x40), ByteChar(0x80 + x % 0x40)]
  }

  /** The text GTK hands the entry's handlers: the UTF-8 encoding of what
      the entry shows, one `char` per byte. */
  function Utf8(s: string): (b: string)
    ensures |b| >= |s|
  {
    if s == [] then [] else Utf8Char(s[0]) + Utf8(s[1..])
  }

  predicate Ascii(s: string) {
    forall i :: 0 <= i < |s| ==> s[i] as int < 0x80
  }

  /** Text made of ASCII characters is its own encoding. */
  lemma {:induction false} Utf8Ascii(s: string)
    requires Ascii(s)
    ensures Utf8(s) == s
    decreases |s|
  {
    if s != [] {
      Utf8Ascii(s[1..]);
      assert [s[0]] + s[1..] == s;
    }
  }

  lemma {:induction false} DigitsSnoc(s: string, c: char)
    ensures Digits(s + [c]) == Digits(s) + (if IsDigit(c) then [c] else [])
  {
    assert (s + [c])[..|s|] == s;
  }

  lemma {:induction false} DigitsAppend(a: string, b: string)
    ensures Digits(a + b) == Digits(a) + Digits(b)
    decreases |b|
  {
    if b == [] {
      assert a + b == a;
    } else {
      var b', c := b[..|b| - 1], b[|b| - 1];
      assert b == b' + [c];
      assert a + b == (a + b') + [c];
      DigitsAppend(a, b');
      DigitsSnoc(a + b', c);
      DigitsSnoc(b', c);
    }
  }

  lemma {:induction false} DigitsNone(s: string)
    requires forall i :: 0 <= i < |s| ==> !IsDigit(s[i])
    ensures Digits(s) == []
    decreases |s|
  {
    if s != [] {
      DigitsNone(s[..|s| - 1]);
    }
  }

  /** The digits among a text's bytes are the digits among its characters:
      the bytes of a non-ASCII character are never digits. */
  lemma {:induction false} Utf8Digits(s: string)
    ensures Digits(Utf8(s)) == Digits(s)
    decreases |s|
  {
    if s != [] {
      var head := Utf8Char(s[0]);
      Utf8Digits(s[1..]);
      DigitsAppend(head, Utf8(s[1..]));
      DigitsAppend([s[0]], s[1..]);
      assert [s[0]] + s[1..] == s;
      if s[0] as int >= 0x80 {
        DigitsNone(head);
        DigitsNone([s[0]]);
      } else {
        assert head == [s[0]];
      }
    }
  }

  /** The euro sign is the three bytes E2 82 AC. */
  lemma EuroBytes()
    ensures Utf8("\U{20AC}12345") == [ByteChar(0xE2), ByteChar(0x82), ByteChar(0xAC)] + "12345"
  {
    var s := "\U{20AC}12345";
    assert s[1..] == "12345";
    Utf8Ascii("12345");
  }

  /** The filter's window is seven bytes, not seven characters: "€12345",
      six characters and within the entry's limit, is eight bytes, and the
      handler keeps "1234" where the characters hold "12345". */
  lemma EuroWindow()
    ensures Utf8("\U{20AC}12345") == [ByteChar(0xE2), ByteChar(0x82), ByteChar(0xAC)] + "12345"
    ensures |Utf8("\U{20AC}12345")| == 8
    ensures Filtered(Utf8("\U{20AC}12345")) == "1234"
    ensures Digits("\U{20AC}12345") == "12345"
  {
    EuroBytes();
    var euro := [ByteChar(0xE2), ByteChar(0x82), ByteChar(0xAC)];
    var b := euro + "12345";
    assert b[..7] == euro + "1234";
    DigitsAppend(euro, "1234");
    DigitsNone(euro);
    DigitsOfDigits("1234");
    DigitsAppend(['\U{20AC}'], "12345");
    DigitsNone(['\U{20AC}']);
    DigitsOfDigits("12345");
    assert "\U{20AC}12345" == ['\U{20AC}'] + "12345";
  }

  /** `do_trig_samples_focus`: an entry left empty reads "1". */
  function FocusOut(s: string): (r: string)
    ensures r != [] && (s != [] ==> r == s)
    ensures s == [] ==> r == "1"
  {
    if s == [] then "1" else s
  }

  function DigitValue(c: char): nat
    requires IsDigit(c)
  {
    (c as int) - ('0' as int)
  }

  function DigitChar(d: nat): (c: char)
    requires d < 10
    ensures IsDigit(c) && DigitValue(c) == d
  {
    (('0' as int) + d) as char
  }

  /** C `atoi` on a text of digits (0 for the empty text). */
  function Atoi(s: string): nat
    requires AllDigits(s)
  {
    if s == [] then 0 else 10 * Atoi(s[..|s| - 1]) + DigitValue(s[|s| - 1])
  }

  /** `sprintf("%d", m)` for a non-negative `m`. */
  function Show(m: nat): (s: string)
    ensures s != [] && AllDigits(s)
  {
    if m < 10 then [DigitChar(m)] else Show(m / 10) + [DigitChar(m % 10)]
  }

  function Pow10(k: nat): nat {
    if k == 0 then 1 else 10 * Pow10(k - 1)
  }

  /** Printing a number and reading it back gives the number. */
  lemma {:induction false} AtoiShow(m: nat)
    ensures Atoi(Show(m)) == m
  {
    if m >= 10 {
      AtoiShow(m / 10);
      var s := Show(m);
      assert s[..|s| - 1] == Show(m / 10);
    }
  }

  /** Reading a text of digits without a leading zero and printing the number
      gives the text back. */
  lemma {:induction false} ShowAtoi(s: string)
    requires s != [] && AllDigits(s) && s[0] != '0'
    ensures Show(Atoi(s)) == s
    decreases |s|
  {
    var p, d := s[..|s| - 1], s[|s| - 1];
    assert s == p + [d];
    if p != [] {
      ShowAtoi(p);
      AtoiPositive(p);
      var m := Atoi(s);
      assert m / 10 == Atoi(p) && m % 10 == DigitValue(d);
      assert DigitChar(DigitValue(d)) == d;
    } else {
      assert DigitChar(DigitValue(d)) == d;
    }
  }

  lemma {:induction false} AtoiPositive(s: string)
    requires s != [] && AllDigits(s) && s[0] != '0'
    ensures Atoi(s) >= 1
    decreases |s|
  {
    if |s| > 1 {
      AtoiPositive(s[..|s| - 1]);
    }
  }

  lemma {:induction false} AtoiBound(s: string)
    requires AllDigits(s)
    ensures Atoi(s) < Pow10(|s|)
    decreases |s|
  {
    if s != [] {
      AtoiBound(s[..|s| - 1]);
    }
  }

  /** A valid min-samples text reads as a number below ten million. */
  lemma {:induction false} SevenDigits(s: string)
    requires Canonical(s)
    ensures Atoi(s) < 10_000_000
  {
    AtoiBound(s);
    Pow10Monotone(|s|, 7);
    assert Pow10(7) == 10_000_000;
  }

  /** A min-samples text that went through the filter and the focus-out
      handler commits a number from 1 to 9999999, and that number prints
      back as the same text. */
  lemma {:induction false} CommittedSamples(text: string)
    ensures var t := FocusOut(Filtered(text));
      AllDigits(t) && 1 <= Atoi(t) <= 9_999_999 && Show(Atoi(t)) == t
  {
    var f := Filtered(text);
    var t := FocusOut(f);
    FilteredCanonical(text);
    AtoiBound(t);
    assert Pow10(|t|) <= Pow10(7) == 10_000_000 by {
      Pow10Monotone(|t|, 7);
    }
    AtoiPositive(t);
    ShowAtoi(t);
  }

  lemma {:induction false} Pow10Monotone(j: nat, k: nat)
    requires j <= k
    ensures Pow10(j) <= Pow10(k)
    decreases k
  {
    if j < k {
      Pow10Monotone(j, k - 1);
    }
  }

  /** One row of the dialog: the enable box, the min-samples text and one
      level label per channel column. */
  datatype Row = Row(enabled: bool, samples: string, labels: seq<char>)

  /** The stage as the dialog leaves it in the header when it opens: a
      minimum of 0 samples is rewritten to 1. */
  function Normalize(t: Trigger): (u: Trigger)
    ensures u.enabled == t.enabled && u.mask == t.mask && u.value == t.value
    ensures u.minSamples >= 1 && (t.minSamples != 0 ==> u == t)
    ensures t.minSamples == 0 ==> u.minSamples == 1
  {
    if t.minSamples == 0 then t.(minSamples := 1) else t
  }

  /** The label a level button shows for a channel: "1" or "0" after the
      value bit when the channel is in the stage's mask, the initial "-"
      otherwise. */
  function Level(inMask: bool, inValue: bool): (l: char)
    ensures IsLevel(l)
  {
    if inMask then (if inValue then '1' else '0') else '-'
  }

  /** The label of channel `c` for stage `t`. */
  function LabelOf(t: Trigger, c: nat): char
    requires c < 32
  {
    Level(t.MaskBits() & Bit(c) != 0, t.ValueBits() & Bit(c) != 0)
  }

  function Labels(t: Trigger, channels: seq<nat>): (ls: seq<char>)
    requires ValidChannels(channels)
    ensures |ls| == |channels|
    ensures forall i :: 0 <= i < |ls| ==> ls[i] == LabelOf(t, channels[i])
  {
    seq(|channels|, i requires 0 <= i < |channels| => LabelOf(t, channels[i]))
  }

  /** The entry's text for stage `t`: the minimum printed in decimal, as the
      entry's filter keeps it. */
  function SamplesText(t: Trigger): (s: string)
    ensures Canonical(s)
  {
    FilteredCanonical(Show(Normalize(t).minSamples));
    Filtered(Show(Normalize(t).minSamples))
  }

  /** The enable boxes after the dialog opens: ticking the box of an enabled
      stage runs the enable handler, which ticks every earlier box too, so a
      box ends up ticked when its stage or any later one is enabled. */
  method PopulateEnables(trigs: seq<Trigger>) returns (e: seq<bool>)
    requires |trigs| == MAX_TRIGGERS
    ensures |e| == MAX_TRIGGERS && IsPrefix(e)
    ensures forall k :: 0 <= k < MAX_TRIGGERS ==>
      (e[k] <==> exists j :: k <= j < MAX_TRIGGERS && trigs[j].enabled != 0)
  {
    e := [false, false, false, false];
    var t := 0;
    while t < MAX_TRIGGERS
      invariant 0 <= t <= MAX_TRIGGERS && |e| == MAX_TRIGGERS
      invariant forall k :: 0 <= k < MAX_TRIGGERS ==>
        (e[k] <==> exists j :: k <= j < t && trigs[j].enabled != 0)
    {
      if trigs[t].enabled != 0 && !e[t] {
        var ticked := e[t := true];
        e := TrigEnables(ticked, t);
        forall k | 0 <= k < MAX_TRIGGERS
          ensures e[k] <==> exists j :: k <= j < t + 1 && trigs[j].enabled != 0
        {
          if k <= t {
            assert ticked[t] && trigs[t].enabled != 0;
          } else {
            assert !e[k];
          }
        }
      }
      t := t + 1;
    }
  }

  /** The rows show the stages `trigs`: each row's entry and labels are its
      stage's, and a box is ticked when its stage or a later one is
      enabled. */
  predicate Shows(rows: seq<Row>, trigs: seq<Trigger>, channels: seq<nat>)
    requires |trigs| == MAX_TRIGGERS && ValidChannels(channels)
  {
    && |rows| == MAX_TRIGGERS
    && (forall t :: 0 <= t < MAX_TRIGGERS ==>
          rows[t].samples == SamplesText(trigs[t]) && rows[t].labels == Labels(trigs[t], channels))
    && (forall k :: 0 <= k < MAX_TRIGGERS ==>
          (rows[k].enabled <==> exists j :: k <= j < MAX_TRIGGERS && trigs[j].enabled != 0))
  }

  /** The dialog as it opens on the stages `trigs`, and the stages it leaves
      in the header: opening rewrites a minimum of 0 to 1 in the header
      itself, so the rewrite stays even when the dialog is cancelled. */
  method Populate(trigs: seq<Trigger>, channels: seq<nat>) returns (rows: seq<Row>, stored: seq<Trigger>)
    requires |trigs| == MAX_TRIGGERS && ValidChannels(channels)
    ensures Shows(rows, trigs, channels) && IsPrefix(Enables(rows))
    ensures |stored| == MAX_TRIGGERS
    ensures forall t :: 0 <= t < MAX_TRIGGERS ==> stored[t] == Normalize(trigs[t])
    ensures forall t :: 0 <= t < MAX_TRIGGERS ==> stored[t].minSamples != 0
  {
    stored := seq(MAX_TRIGGERS, t requires 0 <= t < MAX_TRIGGERS => Normalize(trigs[t]));
    var e := PopulateEnables(trigs);
    rows := seq(MAX_TRIGGERS, t requires 0 <= t < MAX_TRIGGERS =>
      Row(e[t], SamplesText(trigs[t]), Labels(trigs[t], channels)));
    assert Enables(rows) == e;
  }

  function Enables(rows: seq<Row>): (e: seq<bool>)
    ensures |e| == |rows| && forall t :: 0 <= t < |rows| ==> e[t] == rows[t].enabled
  {
    seq(|rows|, t requires 0 <= t < |rows| => rows[t].enabled)
  }

  /** Whether a label sets the channel's bit in the mask (`high` false) or
      in the value (`high` true): any label but "-" is in the mask, only "1"
      is in the value. */
  predicate Selects(l: char, high: bool) {
    if high then l == '1' else l != '-'
  }

  /** The channels of the columns whose label selects, in column order. */
  function Selected(labels: seq<char>, channels: seq<nat>, high: bool): (cs: seq<nat>)
    requires |labels| == |channels| && ValidChannels(channels)
    ensures ValidChannels(cs) && |cs| <= |channels|
  {
    if channels == [] then []
    else if Selects(labels[0], high) then [channels[0]] + Selected(labels[1..], channels[1..], high)
    else Selected(labels[1..], channels[1..], high)
  }

  /** A channel is selected exactly when some column of that channel
      selects. */
  lemma {:induction false} SelectedMembers(labels: seq<char>, channels: seq<nat>, high: bool, b: nat)
    requires |labels| == |channels| && ValidChannels(channels)
    ensures b in Selected(labels, channels, high) <==>
      exists i :: 0 <= i < |channels| && channels[i] == b && Selects(labels[i], high)
  {
    if channels != [] {
      SelectedMembers(labels[1..], channels[1..], high, b);
      if exists i :: 0 <= i < |channels| && channels[i] == b && Selects(labels[i], high) {
        var i :| 0 <= i < |channels| && channels[i] == b && Selects(labels[i], high);
        if i > 0 {
          assert channels[1..][i - 1] == b && Selects(labels[1..][i - 1], high);
        }
      }
      if exists i :: 0 <= i < |channels| - 1 && channels[1..][i] == b && Selects(labels[1..][i], high) {
        var i :| 0 <= i < |channels| - 1 && channels[1..][i] == b && Selects(labels[1..][i], high);
        assert channels[i + 1] == b && Selects(labels[i + 1], high);
      }
    }
  }

  /** The OR of `1 << channels[i]` over the columns whose label selects. */
  function Collect(labels: seq<char>, channels: seq<nat>, high: bool): bv32
    requires |labels| == |channels| && ValidChannels(channels)
  {
    ChannelMask(Selected(labels, channels, high))
  }

  /** With distinct channels, column `i`'s channel is selected exactly when
      column `i`'s label selects. */
  lemma {:induction false} SelectedColumn(labels: seq<char>, channels: seq<nat>, high: bool, i: nat)
    requires ValidChannels(channels) && Distinct(channels) && |labels| == |channels| && i < |channels|
    ensures channels[i] in Selected(labels, channels, high) <==> Selects(labels[i], high)
  {
    var c := channels[i];
    SelectedMembers(labels, channels, high, c);
    if c in Selected(labels, channels, high) {
      var j :| 0 <= j < |channels| && channels[j] == c && Selects(labels[j], high);
      assert j == i;
    }
  }

  /** For the labels showing stage `t`, a channel is selected exactly when
      it has a column and its label selects. */
  lemma {:induction false} LabelsSelect(t: Trigger, channels: seq<nat>, high: bool, b: nat)
    requires ValidChannels(channels) && b < 32
    ensures b in Selected(Labels(t, channels), channels, high) <==>
      b in channels && Selects(LabelOf(t, b), high)
  {
    var labels := Labels(t, channels);
    SelectedMembers(labels, channels, high, b);
    if b in channels {
      var i :| 0 <= i < |channels| && channels[i] == b;
      assert labels[i] == LabelOf(t, b);
    }
  }

  /** A level label selects the mask bit when it is not "-" and the value
      bit when it is "1", and those two facts determine it. */
  lemma {:induction false} LevelSelects(inMask: bool, inValue: bool, l: char)
    ensures Selects(Level(inMask, inValue), false) == inMask
    ensures Selects(Level(inMask, inValue), true) == (inMask && inValue)
    ensures IsLevel(l) ==> Level(Selects(l, false), Selects(l, true)) == l
  {
  }

  /** Closing the dialog with OK turns a row back into a stage: the box's
      state, the atoi of the entry, and the mask and value collected from
      the labels. */
  function Commit(row: Row, channels: seq<nat>): (t: Trigger)
    requires |row.labels| == |channels| && ValidChannels(channels) && Canonical(row.samples)
    ensures t.enabled == 0 || t.enabled == 1
    ensures t.enabled != 0 <==> row.enabled
    ensures t.minSamples == Atoi(row.samples) && t.minSamples < 10_000_000
  {
    SevenDigits(row.samples);
    Trigger(
      if row.enabled then 1 else 0,
      Collect(row.labels, channels, false) as int,
      Collect(row.labels, channels, true) as int,
      Atoi(row.samples))
  }

  /** Whatever labels the user leaves, OK stores a value bit only under a
      mask bit: a "1" label sets both. */
  lemma {:induction false} CommitValueInMask(row: Row, channels: seq<nat>, b: nat)
    requires |row.labels| == |channels| && ValidChannels(channels) && Canonical(row.samples) && b < 32
    ensures var u := Commit(row, channels);
      u.ValueBits() & Bit(b) != 0 ==> u.MaskBits() & Bit(b) != 0
  {
    CommitBits(row, channels);
    ChannelMaskBits(Selected(row.labels, channels, false), b);
    ChannelMaskBits(Selected(row.labels, channels, true), b);
    SelectedMembers(row.labels, channels, false, b);
    SelectedMembers(row.labels, channels, true, b);
  }

  /** ... and a mask bit only for a channel the dialog has a column for. */
  lemma {:induction false} CommitMaskInChannels(row: Row, channels: seq<nat>, b: nat)
    requires |row.labels| == |channels| && ValidChannels(channels) && Canonical(row.samples) && b < 32
    ensures var u := Commit(row, channels);
      u.MaskBits() & Bit(b) != 0 ==> ChannelMask(channels) & Bit(b) != 0
  {
    CommitBits(row, channels);
    ChannelMaskBits(Selected(row.labels, channels, false), b);
    ChannelMaskBits(channels, b);
    SelectedMembers(row.labels, channels, false, b);
  }

  lemma {:induction false} ShowLength(m: nat, k: nat)
    requires k >= 1 && m < Pow10(k)
    ensures |Show(m)| <= k
  {
    if m >= 10 {
      ShowLength(m / 10, k - 1);
    }
  }

  lemma {:induction false} ShowLeading(m: nat)
    requires m >= 1
    ensures Show(m)[0] != '0'
  {
    if m >= 10 {
      ShowLeading(m / 10);
    }
  }

  /** A number from 1 to 9999999 prints as a valid min-samples text, which
      the entry's filter leaves as it is. */
  lemma {:induction false} ShowCanonical(m: nat)
    requires 1 <= m < 10_000_000
    ensures Canonical(Show(m)) && Filtered(Show(m)) == Show(m)
  {
    assert Pow10(7) == 10_000_000;
    ShowLength(m, 7);
    ShowLeading(m);
    FilteredFixed(Show(m));
  }

  /** The label of a stage whose mask and value are the masks of the
      channels `inMask` and `inValue` tells whether `c` is in each. */
  lemma {:induction false} StoredLabel(u: Trigger, inMask: seq<nat>, inValue: seq<nat>, c: nat)
    requires ValidChannels(inMask) && ValidChannels(inValue) && c < 32
    requires u.MaskBits() == ChannelMask(inMask) && u.ValueBits() == ChannelMask(inValue)
    ensures LabelOf(u, c) == Level(c in inMask, c in inValue)
  {
    ChannelMaskBits(inMask, c);
    ChannelMaskBits(inValue, c);
  }

  /** A committed stage holds, as bit patterns, exactly the masks collected
      from the row's labels. */
  lemma {:induction false} CommitBits(row: Row, channels: seq<nat>)
    requires |row.labels| == |channels| && ValidChannels(channels) && Canonical(row.samples)
    ensures Commit(row, channels).MaskBits() == Collect(row.labels, channels, false)
    ensures Commit(row, channels).ValueBits() == Collect(row.labels, channels, true)
  {
    BitsRoundTrip(Collect(row.labels, channels, false));
    BitsRoundTrip(Collect(row.labels, channels, true));
  }

  /** Bit `b` of the mask collected from the labels showing stage `t`: the
      `0` and `1` labels give the mask bits of the columns' channels. */
  lemma {:induction false} CollectedMaskBit(t: Trigger, channels: seq<nat>, b: nat)
    requires ValidChannels(channels) && b < 32
    ensures Collect(Labels(t, channels), channels, false) & Bit(b) != 0 <==>
      b in channels && t.MaskBits() & Bit(b) != 0
  {
    ChannelMaskBits(Selected(Labels(t, channels), channels, false), b);
    LabelsSelect(t, channels, false, b);
    LevelSelects(t.MaskBits() & Bit(b) != 0, t.ValueBits() & Bit(b) != 0, '-');
  }

  /** Bit `b` of the value collected from the labels showing stage `t`: the
      `1` labels give the value bits under the mask. */
  lemma {:induction false} CollectedValueBit(t: Trigger, channels: seq<nat>, b: nat)
    requires ValidChannels(channels) && b < 32
    ensures Collect(Labels(t, channels), channels, true) & Bit(b) != 0 <==>
      b in channels && t.MaskBits() & Bit(b) != 0 && t.ValueBits() & Bit(b) != 0
  {
    ChannelMaskBits(Selected(Labels(t, channels), channels, true), b);
    LabelsSelect(t, channels, true, b);
    LevelSelects(t.MaskBits() & Bit(b) != 0, t.ValueBits() & Bit(b) != 0, '-');
  }

  /** Bit `b` of a committed stage's mask, for a row whose labels show
      stage `t`, whatever its entry holds. */
  lemma {:induction false} CommitMaskBit(t: Trigger, channels: seq<nat>, enabled: bool, text: string, b: nat)
    requires ValidChannels(channels) && Canonical(text) && b < 32
    ensures var u := Commit(Row(enabled, text, Labels(t, channels)), channels);
      u.MaskBits() & Bit(b) != 0 <==> b in channels && t.MaskBits() & Bit(b) != 0
  {
    CommitBits(Row(enabled, text, Labels(t, channels)), channels);
    CollectedMaskBit(t, channels, b);
  }

  /** Bit `b` of a committed stage's value, for a row whose labels show
      stage `t`, whatever its entry holds. */
  lemma {:induction false} CommitValueBit(t: Trigger, channels: seq<nat>, enabled: bool, text: string, b: nat)
    requires ValidChannels(channels) && Canonical(text) && b < 32
    ensures var u := Commit(Row(enabled, text, Labels(t, channels)), channels);
      u.ValueBits() & Bit(b) != 0 <==>
        b in channels && t.MaskBits() & Bit(b) != 0 && t.ValueBits() & Bit(b) != 0
  {
    CommitBits(Row(enabled, text, Labels(t, channels)), channels);
    CollectedValueBit(t, channels, b);
  }

  /** The entry of a row showing stage `t` reads back as the stage's
      minimum, 0 becoming 1, when the minimum has at most seven digits. */
  lemma {:induction false} SamplesTextRoundTrip(t: Trigger)
    requires t.minSamples < 10_000_000
    ensures Canonical(SamplesText(t)) && Atoi(SamplesText(t)) == Normalize(t).minSamples
  {
    var m := Normalize(t).minSamples;
    ShowCanonical(m);
    AtoiShow(m);
  }

  /** Opening the dialog and closing it with OK gives back what the header
      held, restricted to the dialog's columns: bit `b` of the mask is set
      when `b` is a column's channel and was set before, bit `b` of the
      value when it was also set in the value (a value bit outside the mask
      is lost), the box's state is kept, and a minimum below ten million is
      kept, 0 becoming 1. */
  lemma {:induction false} CommitPopulate(t: Trigger, channels: seq<nat>, enabled: bool, b: nat)
    requires ValidChannels(channels) && b < 32
    ensures var u := Commit(Row(enabled, SamplesText(t), Labels(t, channels)), channels);
      && (u.MaskBits() & Bit(b) != 0 <==> b in channels && t.MaskBits() & Bit(b) != 0)
      && (u.ValueBits() & Bit(b) != 0 <==>
            b in channels && t.MaskBits() & Bit(b) != 0 && t.ValueBits() & Bit(b) != 0)
      && (u.enabled == 1 <==> enabled)
      && (t.minSamples < 10_000_000 ==> u.minSamples == Normalize(t).minSamples)
  {
    CommitMaskBit(t, channels, enabled, SamplesText(t), b);
    CommitValueBit(t, channels, enabled, SamplesText(t), b);
    if t.minSamples < 10_000_000 {
      SamplesTextRoundTrip(t);
    }
  }

  /** The label a committed stage shows in column `i` is the label the
      column had, provided no other column has the same channel. */
  lemma {:induction false} LabelRoundTrip(row: Row, channels: seq<nat>, i: nat)
    requires ValidChannels(channels) && Distinct(channels) && |row.labels| == |channels|
    requires Canonical(row.samples) && i < |channels| && IsLevel(row.labels[i])
    ensures LabelOf(Commit(row, channels), channels[i]) == row.labels[i]
  {
    CommitBits(row, channels);
    StoredLabel(Commit(row, channels), Selected(row.labels, channels, false),
      Selected(row.labels, channels, true), channels[i]);
    SelectedColumn(row.labels, channels, false, i);
    SelectedColumn(row.labels, channels, true, i);
    LevelSelects(false, false, row.labels[i]);
  }

  /** A row whose entry holds a valid, non-empty text and whose buttons show
      level labels is shown again, unchanged, by the stage it commits to,
      provided no channel has two columns. */
  lemma {:induction false} PopulateCommit(row: Row, channels: seq<nat>)
    requires ValidChannels(channels) && Distinct(channels) && |row.labels| == |channels|
    requires forall i :: 0 <= i < |row.labels| ==> IsLevel(row.labels[i])
    requires Canonical(row.samples) && row.samples != []
    ensures var u := Commit(row, channels);
      && Labels(u, channels) == row.labels
      && SamplesText(u) == row.samples
      && (u.enabled != 0 <==> row.enabled)
  {
    var u := Commit(row, channels);
    forall i | 0 <= i < |channels|
      ensures Labels(u, channels)[i] == row.labels[i]
    {
      LabelRoundTrip(row, channels, i);
    }
    AtoiPositive(row.samples);
    ShowAtoi(row.samples);
    FilteredFixed(row.samples);
  }

  /** A row the dialog can be closed with: a level label per column and a
      valid, non-empty min-samples text. */
  predicate Closable(row: Row, channels: seq<nat>) {
    && |row.labels| == |channels|
    && (forall i :: 0 <= i < |row.labels| ==> IsLevel(row.labels[i]))
    && Canonical(row.samples) && row.samples != []
  }

  /** OK on the whole dialog: every row committed to its stage. */
  function CommitAll(rows: seq<Row>, channels: seq<nat>): (trigs: seq<Trigger>)
    requires ValidChannels(channels)
    requires forall t :: 0 <= t < |rows| ==> Closable(rows[t], channels)
    ensures |trigs| == |rows|
  {
    seq(|rows|, t requires 0 <= t < |rows| && Closable(rows[t], channels) => Commit(rows[t], channels))
  }

  /** What the dialog shows is determined by the stages it shows. */
  lemma {:induction false} ShowsUnique(a: seq<Row>, b: seq<Row>, trigs: seq<Trigger>, channels: seq<nat>)
    requires |trigs| == MAX_TRIGGERS && ValidChannels(channels)
    requires Shows(a, trigs, channels) && Shows(b, trigs, channels)
    ensures a == b
  {
    forall t | 0 <= t < MAX_TRIGGERS ensures a[t] == b[t] {
      assert a[t].enabled == b[t].enabled;
    }
  }

  /** Closing the dialog with OK and opening it again shows the same rows,
      when the ticked boxes form a prefix (as the enable handler keeps
      them), every label is a level and every entry holds a valid,
      non-empty text, and no channel has two columns. */
  lemma {:induction false} ReopenShows(rows: seq<Row>, channels: seq<nat>)
    requires |rows| == MAX_TRIGGERS && ValidChannels(channels) && Distinct(channels)
    requires forall t :: 0 <= t < |rows| ==> Closable(rows[t], channels)
    requires IsPrefix(Enables(rows))
    ensures Shows(rows, CommitAll(rows, channels), channels)
  {
    var trigs := CommitAll(rows, channels);
    forall t | 0 <= t < MAX_TRIGGERS
      ensures rows[t].samples == SamplesText(trigs[t]) && rows[t].labels == Labels(trigs[t], channels)
    {
      PopulateCommit(rows[t], channels);
    }
    ReopenEnables(rows, trigs, channels);
  }

  /** The boxes of committed rows whose ticks form a prefix are ticked again
      on reopening exactly as they were. */
  lemma {:induction false} ReopenEnables(rows: seq<Row>, trigs: seq<Trigger>, channels: seq<nat>)
    requires |rows| == MAX_TRIGGERS && ValidChannels(channels)
    requires forall t :: 0 <= t < |rows| ==> Closable(rows[t], channels)
    requires IsPrefix(Enables(rows)) && trigs == CommitAll(rows, channels)
    ensures forall k :: 0 <= k < MAX_TRIGGERS ==>
      (rows[k].enabled <==> exists j :: k <= j < MAX_TRIGGERS && trigs[j].enabled != 0)
  {
    var e := Enables(rows);
    assert forall j :: 0 <= j < MAX_TRIGGERS ==> (trigs[j].enabled != 0 <==> e[j]);
    forall k | 0 <= k < MAX_TRIGGERS
      ensures e[k] <==> exists j :: k <= j < MAX_TRIGGERS && e[j]
    {
      if e[k] {
        assert k <= k < MAX_TRIGGERS && e[k];
      }
    }
  }

  /** Pressing OK and opening the dialog again shows exactly the rows it
      was closed with, under the conditions of `ReopenShows`. */
  method CloseAndReopen(rows: seq<Row>, channels: seq<nat>) returns (shown: seq<Row>)
    requires |rows| == MAX_TRIGGERS && ValidChannels(channels) && Distinct(channels)
    requires forall t :: 0 <= t < |rows| ==> Closable(rows[t], channels)
    requires IsPrefix(Enables(rows))
    ensures shown == rows
  {
    var trigs := CommitAll(rows, channels);
    var stored;
    shown, stored := Populate(trigs, channels);
    ReopenShows(rows, channels);
    ShowsUnique(shown, rows, trigs, channels);
  }
}

=== FILE: encoder.dfy ===
/**
  The viewer's edge encoder (Panalyzer.c `do_run` and `prepopulate_data`).
  After a capture the viewer masks every sample with the capture mask and
  keeps only the transitions: a list of records `{sample, levels}` saying
  that from sample `sample` on the masked channels read `levels`, closed by
  a sentinel record at sample `n` that repeats the last levels.
 */
module Encoder {
  import opened Layout

  /** One entry of the viewer's signal list. */
  datatype Record = Record(sample: nat, levels: bv32)

  /** A sample restricted to the captured channels. */
  function Level(x: bv32, mask: bv32): bv32 {
    x & mask
  }

  function Masked(trace: seq<bv32>, mask: bv32): (m: seq<bv32>)
    ensures |m| == |trace|
    ensures forall i :: 0 <= i < |trace| ==> m[i] == Level(trace[i], mask)
  {
    seq(|trace|, i requires 0 <= i < |trace| => Level(trace[i], mask))
  }

  /** `len` samples all reading `v`. */
  function Run(v: bv32, len: nat): (r: seq<bv32>)
    ensures |r| == len && forall i :: 0 <= i < len ==> r[i] == v
  {
    seq(len, _ => v)
  }

  function Last(recs: seq<Record>): Record
    requires recs != []
  {
    recs[|recs| - 1]
  }

  /** Record sample indices strictly increase. */
  predicate Increasing(recs: seq<Record>) {
    forall j, k :: 0 <= j < k < |recs| ==> recs[j].sample < recs[k].sample
  }

  /** Neighbouring records carry different levels. */
  predicate Changes(recs: seq<Record>) {
    forall k :: 0 < k < |recs| ==> recs[k - 1].levels != recs[k].levels
  }

  /** A record list the encoder can produce: it starts at sample 0, samples
      increase, every record but the sentinel records a change, and the
      sentinel repeats the levels of the record before it. */
  predicate Canonical(recs: seq<Record>) {
    && |recs| >= 2
    && recs[0].sample == 0
    && Increasing(recs)
    && Changes(recs[..|recs| - 1])
    && Last(recs).levels == recs[|recs| - 2].levels
  }

  /** The records emitted while scanning `L`, sentinel not yet added. */
  function Edges(L: seq<bv32>): (e: seq<Record>)
    requires |L| >= 1
    ensures 1 <= |e| <= |L|
    ensures e[0] == Record(0, L[0])
    ensures Last(e).levels == L[|L| - 1] && Last(e).sample < |L|
    decreases |L|
  {
    if |L| == 1 then [Record(0, L[0])]
    else
      var e := Edges(L[..|L| - 1]);
      if L[|L| - 1] != Last(e).levels then e + [Record(|L| - 1, L[|L| - 1])] else e
  }

  /** The complete record list for the masked samples `L`. */
  function Encoding(L: seq<bv32>): (recs: seq<Record>)
    requires |L| >= 1
    ensures 2 <= |recs| <= |L| + 1
    ensures recs[0] == Record(0, L[0])
    ensures Last(recs) == Record(|L|, L[|L| - 1])
  {
    var e := Edges(L);
    e + [Record(|L|, Last(e).levels)]
  }

  /** Each record the scan emits lies after the previous one and records a
      change. */
  lemma {:induction false} EdgesCanonical(L: seq<bv32>)
    requires |L| >= 1
    ensures Increasing(Edges(L)) && Changes(Edges(L))
    decreases |L|
  {
    if |L| > 1 {
      var P := L[..|L| - 1];
      var e := Edges(P);
      EdgesCanonical(P);
      if L[|L| - 1] != Last(e).levels {
        var e' := e + [Record(|L| - 1, L[|L| - 1])];
        assert Edges(L) == e';
        forall j, k | 0 <= j < k < |e'| ensures e'[j].sample < e'[k].sample {
          if k < |e| {
            assert e'[j] == e[j] && e'[k] == e[k];
          } else if j < |e| - 1 {
            assert e[j].sample < Last(e).sample;
          }
        }
      }
    }
  }

  /** The encoder only produces canonical record lists. */
  lemma {:induction false} EncodingCanonical(L: seq<bv32>)
    requires |L| >= 1
    ensures Canonical(Encoding(L))
  {
    var e := Edges(L);
    EdgesCanonical(L);
    ExpandSnoc(e, Record(|L|, Last(e).levels));
    assert Encoding(L)[..|e|] == e;
  }

  /** The run-length reading of a record list: each record's levels repeated
      up to the next record's sample. */
  function Expand(recs: seq<Record>): (L: seq<bv32>)
    decreases |recs|
  {
    if |recs| < 2 then []
    else Run(recs[0].levels, Gap(recs[0].sample, recs[1].sample)) + Expand(recs[1..])
  }

  /** The number of samples from `a` up to `b`. */
  function Gap(a: nat, b: nat): nat {
    if a <= b then b - a else 0
  }

  /** An increasing record list expands to as many samples as its first and
      last record are apart. */
  lemma {:induction false} ExpandLength(recs: seq<Record>)
    requires recs != [] && Increasing(recs)
    ensures |Expand(recs)| == Last(recs).sample - recs[0].sample
    decreases |recs|
  {
    if |recs| >= 2 {
      ExpandLength(recs[1..]);
    }
  }

  /** The capture mask, accumulated channel by channel as the viewer does:
      it is the channel mask of the list (whose bit `b` is set exactly when
      `b` is listed, by `Layout.ChannelMaskBits`), and for the default
      channels it is the default header's channel mask. */
  method BuildMask(channels: seq<nat>) returns (mask: bv32)
    requires ValidChannels(channels)
    ensures mask == ChannelMask(channels)
    ensures channels == DEF_CHANNELS ==> mask as int == DEF_PANCTL.channelMask
  {
    mask := 0;
    var i := 0;
    while i < |channels|
      invariant i <= |channels| && mask == ChannelMask(channels[..i])
    {
      ChannelMaskPrefix(channels, i);
      mask := mask | Bit(channels[i]);
      i := i + 1;
    }
    assert channels[..i] == channels;
    if channels == DEF_CHANNELS {
      DefaultHeader();
    }
  }

  lemma {:induction false} ChannelMaskPrefix(channels: seq<nat>, i: nat)
    requires forall j :: 0 <= j < |channels| ==> channels[j] < 32
    requires i < |channels|
    ensures ChannelMask(channels[..i + 1]) == ChannelMask(channels[..i]) | Bit(channels[i])
  {
    ChannelMaskSnoc(channels[..i], channels[i]);
    assert channels[..i + 1] == channels[..i] + [channels[i]];
  }

  lemma {:induction false} ChannelMaskSnoc(channels: seq<nat>, c: nat)
    requires ValidChannels(channels)
    requires c < 32
    ensures ChannelMask(channels + [c]) == ChannelMask(channels) | Bit(c)
  {
    if channels == [] {
      assert ChannelMask([c]) == Bit(c) | ChannelMask([]);
    } else {
      ChannelMaskSnoc(channels[1..], c);
      assert (channels + [c])[1..] == channels[1..] + [c];
    }
  }

  /** The transition scan: the first record holds sample 0, a record is added
      wherever the masked sample differs from the last record's levels, and
      the sentinel at sample `n` closes the list. The result has at most
      `n + 1` records (the slots allocated for it) and expands back to the
      masked samples. */
  method Encode(trace: seq<bv32>, mask: bv32) returns (recs: seq<Record>)
    requires |trace| >= 1
    ensures recs == Encoding(Masked(trace, mask))
    ensures Canonical(recs) && |recs| <= |trace| + 1
    ensures recs[0] == Record(0, Level(trace[0], mask))
    ensures Last(recs).sample == |trace|
    ensures Expand(recs) == Masked(trace, mask)
  {
    ghost var L := Masked(trace, mask);
    recs := [Record(0, Level(trace[0], mask))];
    var i := 1;
    while i < |trace|
      invariant 1 <= i <= |trace|
      invariant recs == Edges(L[..i])
    {
      assert L[..i + 1][..i] == L[..i];
      if Level(trace[i], mask) != recs[|recs| - 1].levels {
        recs := recs + [Record(i, Level(trace[i], mask))];
      }
      i := i + 1;
    }
    assert L[..i] == L;
    recs := recs + [Record(i, recs[|recs| - 1].levels)];
    EncodingCanonical(L);
    ExpandEncoding(L);
  }

  /** Appending a record after the last one lengthens the expansion by a
      run of the old last levels. */
  lemma {:induction false} ExpandSnoc(recs: seq<Record>, r: Record)
    requires recs != [] && Increasing(recs) && r.sample > Last(recs).sample
    ensures Increasing(recs + [r])
    ensures Expand(recs + [r]) == Expand(recs) + Run(Last(recs).levels, r.sample - Last(recs).sample)
    decreases |recs|
  {
    var rs := recs + [r];
    assert Increasing(rs) by {
      forall j, k | 0 <= j < k < |rs| ensures rs[j].sample < rs[k].sample {
        if k < |recs| {
          assert rs[j] == recs[j] && rs[k] == recs[k];
        } else if j < |recs| - 1 {
          assert recs[j].sample < Last(recs).sample;
        }
      }
    }
    if |recs| == 1 {
      assert rs[1..] == [r];
    } else {
      ExpandSnoc(recs[1..], r);
      assert rs[1..] == recs[1..] + [r];
    }
  }

  /** Expanding the encoding of `L` gives back `L`. */
  lemma {:induction false} ExpandEncoding(L: seq<bv32>)
    requires |L| >= 1
    ensures Expand(Encoding(L)) == L
    decreases |L|
  {
    if |L| == 1 {
      assert Encoding(L)[1..] == [Record(1, L[0])];
    } else {
      var P, x := L[..|L| - 1], L[|L| - 1];
      assert L == P + [x];
      ExpandEncoding(P);
      if x == Last(Edges(P)).levels {
        ExpandEncodingSame(P, x);
      } else {
        ExpandEncodingChange(P, x);
      }
    }
  }

  lemma {:induction false} ExpandEncodingSame(P: seq<bv32>, x: bv32)
    requires |P| >= 1 && Expand(Encoding(P)) == P && x == Last(Edges(P)).levels
    ensures Expand(Encoding(P + [x])) == P + [x]
  {
    var e := Edges(P);
    var s := Last(e).sample;
    EdgesCanonical(P);
    EdgesStep(P, x);
    ExpandSnoc(e, Record(|P|, x));
    ExpandSnoc(e, Record(|P| + 1, x));
    assert Encoding(P) == e + [Record(|P|, x)];
    EncodingSnocSame(P, x);
    RunSnoc(x, |P| - s);
    AppendAssoc(Expand(e), Run(x, |P| - s), [x]);
  }

  lemma {:induction false} EncodingSnocSame(P: seq<bv32>, x: bv32)
    requires |P| >= 1 && x == Last(Edges(P)).levels
    ensures Encoding(P + [x]) == Edges(P) + [Record(|P| + 1, x)]
  {
    EdgesStep(P, x);
  }

  lemma RunSnoc(v: bv32, n: nat)
    ensures Run(v, n + 1) == Run(v, n) + [v]
  {
  }

  lemma {:induction false} ExpandEncodingChange(P: seq<bv32>, x: bv32)
    requires |P| >= 1 && Expand(Encoding(P)) == P && x != Last(Edges(P)).levels
    ensures Expand(Encoding(P + [x])) == P + [x]
  {
    var e := Edges(P);
    var e' := e + [Record(|P|, x)];
    EdgesCanonical(P);
    EdgesStep(P, x);
    EdgesCanonical(P + [x]);
    ExpandSnoc(e, Record(|P|, Last(e).levels));
    ExpandSnoc(e, Record(|P|, x));
    ExpandSnoc(e', Record(|P| + 1, x));
    assert Encoding(P + [x]) == e' + [Record(|P| + 1, x)];
    assert Run(x, 1) == [x];
  }

  /** One more sample adds a record exactly when it differs from the last
      record's levels. */
  lemma {:induction false} EdgesStep(P: seq<bv32>, x: bv32)
    requires |P| >= 1
    ensures Edges(P + [x]) ==
      if x != Last(Edges(P)).levels then Edges(P) + [Record(|P|, x)] else Edges(P)
  {
    assert (P + [x])[..|P|] == P;
  }

  lemma AppendAssoc(a: seq<bv32>, b: seq<bv32>, c: seq<bv32>)
    ensures a + (b + c) == (a + b) + c
  {
  }

  /** Extending the samples with more of the levels the last record already
      carries adds no record. */
  lemma {:induction false} EdgesRun(P: seq<bv32>, v: bv32, j: nat)
    requires |P| >= 1 && Last(Edges(P)).levels == v
    ensures Edges(P + Run(v, j)) == Edges(P)
    decreases j
  {
    if j > 0 {
      EdgesRun(P, v, j - 1);
      var Q := P + Run(v, j - 1);
      assert Run(v, j) == Run(v, j - 1) + [v];
      assert P + Run(v, j) == Q + [v];
      EdgesSame(Q, v);
    } else {
      assert P + Run(v, 0) == P;
    }
  }

  /** A sample equal to the last record's levels adds no record. */
  lemma {:induction false} EdgesSame(Q: seq<bv32>, v: bv32)
    requires |Q| >= 1 && Last(Edges(Q)).levels == v
    ensures Edges(Q + [v]) == Edges(Q)
  {
    EdgesStep(Q, v);
  }

  /** Re-encoding the expansion of change records followed by any closing
      record reproduces those change records. */
  lemma {:induction false} EdgesOfExpand(e: seq<Record>, m: nat, v: bv32)
    requires e != [] && e[0].sample == 0 && Increasing(e) && Changes(e)
    requires m > Last(e).sample
    ensures Increasing(e + [Record(m, v)])
    ensures |Expand(e + [Record(m, v)])| == m
    ensures Edges(Expand(e + [Record(m, v)])) == e
    decreases |e|
  {
    var s, lv := Last(e).sample, Last(e).levels;
    ExpandSnoc(e, Record(m, v));
    ExpandLength(e);
    if |e| == 1 {
      EdgesOfExpandOne(e, m, v);
    } else {
      var e' := e[..|e| - 1];
      assert e == e' + [Record(s, lv)];
      assert Changes(e') && Increasing(e');
      EdgesOfExpand(e', s, lv);
      EdgesOfExpandMore(e, m, v);
    }
  }

  lemma {:induction false} EdgesOfExpandOne(e: seq<Record>, m: nat, v: bv32)
    requires |e| == 1 && e[0].sample == 0 && m > 0
    ensures Edges(Expand(e + [Record(m, v)])) == e
  {
    var lv := e[0].levels;
    assert (e + [Record(m, v)])[1..] == [Record(m, v)];
    assert Expand(e + [Record(m, v)]) == [lv] + Run(lv, m - 1);
    EdgesRun([lv], lv, m - 1);
  }

  lemma {:induction false} EdgesOfExpandMore(e: seq<Record>, m: nat, v: bv32)
    requires |e| >= 2 && Changes(e) && Increasing(e) && m > Last(e).sample
    requires var P := Expand(e); |P| == Last(e).sample && |P| >= 1 && Edges(P) == e[..|e| - 1]
    requires Expand(e + [Record(m, v)]) == Expand(e) + Run(Last(e).levels, m - Last(e).sample)
    ensures Edges(Expand(e + [Record(m, v)])) == e
  {
    var s, lv := Last(e).sample, Last(e).levels;
    var P := Expand(e);
    assert Last(Edges(P)).levels == e[|e| - 2].levels != lv;
    EdgesChange(P, lv, m - s - 1);
    assert Run(lv, m - s) == [lv] + Run(lv, m - s - 1);
    AppendAssoc(P, [lv], Run(lv, m - s - 1));
    assert Edges(P) + [Record(|P|, lv)] == e;
  }

  /** A sample that differs from the last record's levels, followed by more
      of the same, adds exactly one record. */
  lemma {:induction false} EdgesChange(P: seq<bv32>, x: bv32, j: nat)
    requires |P| >= 1 && Last(Edges(P)).levels != x
    ensures Edges((P + [x]) + Run(x, j)) == Edges(P) + [Record(|P|, x)]
  {
    EdgesStep(P, x);
    EdgesRun(P + [x], x, j);
  }

  /** Encoding the expansion of a canonical record list gives back the list:
      canonical record lists and non-empty sample sequences correspond one to
      one. */
  lemma {:induction false} EncodingOfExpand(recs: seq<Record>)
    requires Canonical(recs)
    ensures |Expand(recs)| >= 1 && Encoding(Expand(recs)) == recs
  {
    var e := recs[..|recs| - 1];
    assert recs == e + [Last(recs)];
    assert e[0].sample == 0 && Last(e).sample < Last(recs).sample;
    EdgesOfExpand(e, Last(recs).sample, Last(recs).levels);
  }

  /** Applying the encoder to what a record list decodes to changes nothing. */
  lemma {:induction false} ReencodeIdempotent(L: seq<bv32>)
    requires |L| >= 1
    ensures |Expand(Encoding(L))| >= 1 && Encoding(Expand(Encoding(L))) == Encoding(L)
  {
    ExpandEncoding(L);
  }
}

=== FILE: layout.dfy ===
/**
  The control block shared by the capture driver and the user-space viewer
  (panalyzer.h): a `panctl_t` header of 32-bit words, its trigger stages, the
  default configuration, and the little-endian byte image the character
  device exposes in front of the sample buffer.

  Counters, ticks and header fields are `uint32` integers with wrap-around
  written out as `% TWO_TO_THE_32`; bitwise operations (masks, samples,
  channel bits) are done on `bv32`.
 */
module Layout {
  import Arith

  const TWO_TO_THE_32: int := 0x1_0000_0000
  type uint32 = x: int | 0 <= x < 0x1_0000_0000

  /** A byte of the device's file. */
  type byte = x: int | 0 <= x < 256

  /** `x` reduced to 32 bits, as C's unsigned arithmetic does. */
  function Wrap(x: int): uint32 {
    x % TWO_TO_THE_32
  }

  /** Number of trigger stages in the header (`MAX_TRIGGERS`). */
  const MAX_TRIGGERS: nat := 4
  /** Magic number that marks a valid header. */
  const PAN_MAGIC: uint32 := 0x50414E41
  const PAN_VERSION: uint32 := 1
  /** Number of channel columns the trigger dialog lays out (`MAX_CHANNELS`). */
  const MAX_CHANNELS: nat := 8
  /** The GPIO lines shown and captured by default (`DEF_CHANNELS`). */
  const DEF_CHANNELS: seq<nat> := [4, 17, 18, 21]

  /** Seven header words come before the trigger table. */
  const HEADER_FIELDS: nat := 7
  /** Each trigger entry is four words. */
  const TRIGGER_FIELDS: nat := 4
  /** Total words in `panctl_t`. */
  const HEADER_WORDS: nat := HEADER_FIELDS + MAX_TRIGGERS * TRIGGER_FIELDS
  /** `sizeof(panctl_t)`: the size of the header region of the device. */
  const HEADER_BYTES: nat := 4 * HEADER_WORDS

  /** One trigger stage: a match of `(mask & sample) == value` held for
      `minSamples` samples. */
  datatype Trigger = Trigger(enabled: uint32, mask: uint32, value: uint32, minSamples: uint32)
  {
    /** The mask as the bit pattern the capture loop and the dialog test. */
    function MaskBits(): bv32 {
      mask as bv32
    }

    function ValueBits(): bv32 {
      value as bv32
    }
  }

  /** `panctl_t`; `trigger` has `MAX_TRIGGERS` entries in a well-formed header. */
  datatype PanCtl = PanCtl(
    magic: uint32,
    version: uint32,
    timestamp: uint32,
    channelMask: uint32,
    sampleRate: uint32,
    numSamples: uint32,
    triggerPoint: uint32,
    trigger: seq<Trigger>)
  {
    ghost predicate Valid() {
      |trigger| == MAX_TRIGGERS
    }
  }

  const NO_TRIGGER: Trigger := Trigger(0, 0, 0, 0)

  /** `DEF_PANCTL`; fields it leaves out of its initializer are zero. Its
      channel mask is the literal `1<<4|1<<17|1<<18|1<<21`. */
  const DEF_PANCTL: PanCtl := PanCtl(
    PAN_MAGIC, PAN_VERSION, 0,
    0x10 + 0x2_0000 + 0x4_0000 + 0x20_0000,
    1, 10000, 0,
    [NO_TRIGGER, NO_TRIGGER, NO_TRIGGER, NO_TRIGGER])

  /** The single-bit mask `1 << c` of channel `c`. */
  function Bit(c: nat): bv32
    requires c < 32
  {
    (1 as bv32) << (c as bv5)
  }

  /** A bit pattern stored in a `uint32` field reads back unchanged. */
  lemma {:induction false} BitsRoundTrip(x: bv32)
    ensures (x as int) as bv32 == x
  {
  }

  /** Channel numbers that are valid shift amounts for a 32-bit sample. */
  predicate ValidChannels(channels: seq<nat>) {
    forall i :: 0 <= i < |channels| ==> channels[i] < 32
  }

  /** No channel is listed twice. */
  predicate Distinct(channels: seq<nat>) {
    forall i, j :: 0 <= i < j < |channels| ==> channels[i] != channels[j]
  }

  /** The OR of `1 << c` over the channels: the capture mask the viewer
      builds before encoding. */
  function ChannelMask(channels: seq<nat>): bv32
    requires ValidChannels(channels)
  {
    if channels == [] then 0 else Bit(channels[0]) | ChannelMask(channels[1..])
  }

  /** Bit `b` of `x | (1 << c)` is set exactly when it is set in `x` or `b` is `c`. */
  lemma {:induction false} OrBit(x: bv32, c: nat, b: nat)
    requires c < 32 && b < 32
    ensures (Bit(c) | x) & Bit(b) != 0 <==> b == c || x & Bit(b) != 0
  {
    if b != c {
      BitsDisjoint(c, b);
    }
  }

  lemma {:induction false} BitsDisjoint(c: nat, b: nat)
    requires c < 32 && b < 32 && c != b
    ensures Bit(c) & Bit(b) == 0
  {
  }

  /** A channel's bit is set in the capture mask exactly when the channel is
      one of the listed ones. */
  lemma {:induction false} ChannelMaskBits(channels: seq<nat>, b: nat)
    requires ValidChannels(channels)
    requires b < 32
    ensures ChannelMask(channels) & Bit(b) != 0 <==> b in channels
  {
    if channels != [] {
      ChannelMaskBits(channels[1..], b);
      OrBit(ChannelMask(channels[1..]), channels[0], b);
      assert b in channels <==> b == channels[0] || b in channels[1..];
    }
  }

  /** The default header is what the driver and the viewer start from: magic
      and version set, 10000 samples, trigger point 0, every stage zero (so
      no trigger), and a channel mask that is the viewer's mask over the
      default channels. Those channels fit the dialog's `MAX_CHANNELS`
      columns, are valid shift amounts and are all different. */
  lemma DefaultHeader()
    ensures DEF_PANCTL.Valid()
    ensures DEF_PANCTL.magic == PAN_MAGIC && DEF_PANCTL.version == 1
    ensures DEF_PANCTL.numSamples == 10000 && DEF_PANCTL.triggerPoint == 0
    ensures forall t :: 0 <= t < MAX_TRIGGERS ==> DEF_PANCTL.trigger[t] == NO_TRIGGER
    ensures |DEF_CHANNELS| <= MAX_CHANNELS
    ensures ValidChannels(DEF_CHANNELS) && Distinct(DEF_CHANNELS)
    ensures DEF_PANCTL.channelMask == ChannelMask(DEF_CHANNELS) as int
  {
    assert ChannelMask([21]) == Bit(21);
    assert ChannelMask([18, 21]) == Bit(18) | Bit(21);
    assert ChannelMask([17, 18, 21]) == Bit(17) | Bit(18) | Bit(21);
    assert ChannelMask(DEF_CHANNELS) == 0x24_0010 | 0x2_0000;
  }

  /** `panctl_t` is 7 header words plus 4 trigger entries of 4 words: 23
      words, 92 bytes. */
  lemma HeaderSize()
    ensures HEADER_WORDS == 23 && HEADER_BYTES == 92
  {
  }

  /** The header as the 23 consecutive uint32 words of `panctl_t`. */
  function HeaderWords(c: PanCtl): (w: seq<uint32>)
    requires c.Valid()
    ensures |w| == HEADER_WORDS
  {
    [c.magic, c.version, c.timestamp, c.channelMask, c.sampleRate, c.numSamples, c.triggerPoint]
      + TriggerWords(c.trigger)
  }

  function TriggerWords(ts: seq<Trigger>): (w: seq<uint32>)
    ensures |w| == TRIGGER_FIELDS * |ts|
  {
    if ts == [] then []
    else [ts[0].enabled, ts[0].mask, ts[0].value, ts[0].minSamples] + TriggerWords(ts[1..])
  }

  /** Reads a header back from its 23 words. */
  function ParseHeader(w: seq<uint32>): (c: PanCtl)
    requires |w| == HEADER_WORDS
    ensures c.Valid()
  {
    PanCtl(w[0], w[1], w[2], w[3], w[4], w[5], w[6], ParseTriggers(w[HEADER_FIELDS..]))
  }

  function ParseTriggers(w: seq<uint32>): (ts: seq<Trigger>)
    requires |w| % TRIGGER_FIELDS == 0
    ensures |ts| == |w| / TRIGGER_FIELDS
  {
    if w == [] then [] else [Trigger(w[0], w[1], w[2], w[3])] + ParseTriggers(w[4..])
  }

  lemma {:induction false} TriggerWordsRoundTrip(ts: seq<Trigger>)
    ensures ParseTriggers(TriggerWords(ts)) == ts
  {
    if ts != [] {
      TriggerWordsRoundTrip(ts[1..]);
      assert TriggerWords(ts)[4..] == TriggerWords(ts[1..]);
    }
  }

  lemma {:induction false} ParseTriggersRoundTrip(w: seq<uint32>)
    requires |w| % TRIGGER_FIELDS == 0
    ensures TriggerWords(ParseTriggers(w)) == w
  {
    if w != [] {
      ParseTriggersRoundTrip(w[4..]);
      assert ParseTriggers(w)[1..] == ParseTriggers(w[4..]);
      assert w == w[..4] + w[4..];
    }
  }

  /** Writing a header out as words and reading it back gives the same
      header, and every 23-word block is the image of exactly one header. */
  lemma HeaderWordsRoundTrip(c: PanCtl, w: seq<uint32>)
    requires c.Valid() && |w| == HEADER_WORDS
    ensures ParseHeader(HeaderWords(c)) == c
    ensures HeaderWords(ParseHeader(w)) == w
  {
    TriggerWordsRoundTrip(c.trigger);
    assert HeaderWords(c)[HEADER_FIELDS..] == TriggerWords(c.trigger);
    ParseTriggersRoundTrip(w[HEADER_FIELDS..]);
    assert w == w[..HEADER_FIELDS] + w[HEADER_FIELDS..];
  }

  /** Base-256 digit `k` of a uint32: its little-endian byte `k`. */
  function Digit(w: uint32, k: nat): (d: int)
    requires k < 4
    ensures 0 <= d < 256
  {
    if k == 0 then w % 256
    else if k == 1 then w / 256 % 256
    else if k == 2 then w / 256 / 256 % 256
    else w / 256 / 256 / 256 % 256
  }

  function Compose(d0: int, d1: int, d2: int, d3: int): int {
    d0 + 256 * (d1 + 256 * (d2 + 256 * d3))
  }

  lemma DigitsCompose(w: uint32)
    ensures Compose(Digit(w, 0), Digit(w, 1), Digit(w, 2), Digit(w, 3)) == w
  {
    var q1 := w / 256;
    var q2 := q1 / 256;
    var q3 := q2 / 256;
    assert w == q1 * 256 + w % 256;
    assert q1 == q2 * 256 + q1 % 256;
    assert q2 == q3 * 256 + q2 % 256;
    assert q3 < 256;
    assert q3 % 256 == q3;
  }

  lemma ComposeDigits(i0: int, i1: int, i2: int, i3: int)
    requires 0 <= i0 < 256 && 0 <= i1 < 256 && 0 <= i2 < 256 && 0 <= i3 < 256
    ensures 0 <= Compose(i0, i1, i2, i3) < TWO_TO_THE_32
    ensures var v := Compose(i0, i1, i2, i3);
      Digit(v, 0) == i0 && Digit(v, 1) == i1 && Digit(v, 2) == i2 && Digit(v, 3) == i3
  {
    var q2 := i2 + 256 * i3;
    var q1 := i1 + 256 * q2;
    var v := i0 + 256 * q1;
    Arith.DivModUnique(v, 256, q1, i0);
    Arith.DivModUnique(q1, 256, q2, i1);
    Arith.DivModUnique(q2, 256, i3, i2);
    Arith.DivModUnique(i3, 256, 0, i3);
  }

  /** Byte `k` of a little-endian uint32 in memory. */
  function ByteOf(w: uint32, k: nat): byte
    requires k < 4
  {
    Digit(w, k)
  }

  /** The little-endian uint32 made of four bytes. */
  function WordOf(b0: byte, b1: byte, b2: byte, b3: byte): uint32 {
    ComposeDigits(b0, b1, b2, b3);
    Compose(b0, b1, b2, b3)
  }

  /** A word split into bytes and put back together is unchanged. */
  lemma WordRoundTrip(w: uint32)
    ensures WordOf(ByteOf(w, 0), ByteOf(w, 1), ByteOf(w, 2), ByteOf(w, 3)) == w
  {
    DigitsCompose(w);
  }

  /** Four bytes put together and split again are unchanged. */
  lemma BytesRoundTrip(b0: byte, b1: byte, b2: byte, b3: byte)
    ensures var v := WordOf(b0, b1, b2, b3);
      ByteOf(v, 0) == b0 && ByteOf(v, 1) == b1 && ByteOf(v, 2) == b2 && ByteOf(v, 3) == b3
  {
    ComposeDigits(b0, b1, b2, b3);
  }

  /** A sequence of uint32 words as it lies in memory, byte by byte. */
  function WordBytes(ws: seq<uint32>): (bs: seq<byte>)
    ensures |bs| == 4 * |ws|
  {
    seq(4 * |ws|, j requires 0 <= j < 4 * |ws| => ByteOf(ws[j / 4], j % 4))
  }

  /** Memory bytes read back as uint32 words. */
  function BytesWords(bs: seq<byte>): (ws: seq<uint32>)
    requires |bs| % 4 == 0
    ensures |ws| == |bs| / 4
  {
    seq(|bs| / 4, i requires 0 <= i < |bs| / 4 =>
      WordOf(bs[4 * i], bs[4 * i + 1], bs[4 * i + 2], bs[4 * i + 3]))
  }

  lemma WordBytesAt(ws: seq<uint32>, i: nat, k: nat)
    requires i < |ws| && k < 4
    ensures 4 * i + k < 4 * |ws|
    ensures WordBytes(ws)[4 * i + k] == ByteOf(ws[i], k)
  {
    assert (4 * i + k) / 4 == i && (4 * i + k) % 4 == k;
  }

  lemma WordAt(ws: seq<uint32>, i: nat)
    requires i < |ws|
    ensures 4 * i + 3 < |WordBytes(ws)|
    ensures WordOf(WordBytes(ws)[4 * i], WordBytes(ws)[4 * i + 1],
                   WordBytes(ws)[4 * i + 2], WordBytes(ws)[4 * i + 3]) == ws[i]
  {
    WordBytesAt(ws, i, 0);
    WordBytesAt(ws, i, 1);
    WordBytesAt(ws, i, 2);
    WordBytesAt(ws, i, 3);
    WordRoundTrip(ws[i]);
  }

  /** Laying out two runs of words one after the other. */
  lemma WordBytesAppend(a: seq<uint32>, b: seq<uint32>)
    ensures WordBytes(a + b) == WordBytes(a) + WordBytes(b)
  {
    var l, r := WordBytes(a + b), WordBytes(a) + WordBytes(b);
    forall j | 0 <= j < |l| ensures l[j] == r[j] {
      var i, k := j / 4, j % 4;
      assert j == 4 * i + k;
      WordBytesAppendAt(a, b, i, k);
    }
  }

  lemma WordBytesAppendAt(a: seq<uint32>, b: seq<uint32>, i: nat, k: nat)
    requires i < |a| + |b| && k < 4
    ensures 4 * i + k < 4 * (|a| + |b|)
    ensures WordBytes(a + b)[4 * i + k] == (WordBytes(a) + WordBytes(b))[4 * i + k]
  {
    WordBytesAt(a + b, i, k);
    if i < |a| {
      WordBytesAt(a, i, k);
    } else {
      WordBytesAt(b, i - |a|, k);
      assert 4 * i + k - 4 * |a| == 4 * (i - |a|) + k;
    }
  }

  /** Words laid out as bytes and read back are unchanged. */
  lemma WordBytesInverse(ws: seq<uint32>)
    ensures BytesWords(WordBytes(ws)) == ws
  {
    var img := WordBytes(ws);
    forall i | 0 <= i < |ws| ensures BytesWords(img)[i] == ws[i] {
      WordAt(ws, i);
    }
  }

  /** Bytes read as words and laid out again are unchanged. */
  lemma BytesWordsInverse(bs: seq<byte>)
    requires |bs| % 4 == 0
    ensures WordBytes(BytesWords(bs)) == bs
  {
    var words := BytesWords(bs);
    forall j | 0 <= j < |bs| ensures WordBytes(words)[j] == bs[j] {
      var i, k := j / 4, j % 4;
      assert j == 4 * i + k;
      WordBytesAt(words, i, k);
      BytesRoundTrip(bs[4 * i], bs[4 * i + 1], bs[4 * i + 2], bs[4 * i + 3]);
    }
  }

  /** The `sizeof(panctl_t)`-byte image of the header that the device reads
      out and writes in. */
  function HeaderImage(c: PanCtl): (bs: seq<byte>)
    requires c.Valid()
    ensures |bs| == HEADER_BYTES
  {
    WordBytes(HeaderWords(c))
  }

  function ParseImage(bs: seq<byte>): (c: PanCtl)
    requires |bs| == HEADER_BYTES
    ensures c.Valid()
  {
    ParseHeader(BytesWords(bs))
  }

  /** Reading a header's byte image back gives the same header. */
  lemma HeaderImageRoundTrip(c: PanCtl)
    requires c.Valid()
    ensures ParseImage(HeaderImage(c)) == c
  {
    var w := HeaderWords(c);
    WordBytesInverse(w);
    HeaderWordsRoundTrip(c, w);
  }

  /** Every 92-byte block is the image of exactly one header. */
  lemma ParseImageRoundTrip(bs: seq<byte>)
    requires |bs| == HEADER_BYTES
    ensures HeaderImage(ParseImage(bs)) == bs
  {
    var v := BytesWords(bs);
    HeaderWordsRoundTrip(ParseHeader(v), v);
    BytesWordsInverse(bs);
  }
}

=== FILE: ring.dfy ===
/**
  The driver's sample buffer (pandriver.c): `num_samples` uint32 slots written
  through a cursor that wraps at the end, with no backpressure. When capture
  ends, the cursor is `first_data_index`, the slot of the oldest retained
  sample, and the device presents the buffer linearized from there.
 */
module Ring {
  import opened Layout
  import Arith

  datatype Ring = Ring(buf: seq<uint32>, cursor: nat)
  {
    ghost predicate Valid() {
      0 < |buf| && cursor < |buf|
    }
  }

  function Zeros(n: nat): (z: seq<uint32>)
    ensures |z| == n && forall i :: 0 <= i < n ==> z[i] == 0
  {
    seq(n, _ => 0)
  }

  /** A freshly allocated buffer: cleared (the driver `memset`s it) with the
      cursor at the start. */
  function Fresh(n: nat): (r: Ring)
    requires n > 0
    ensures r.Valid() && |r.buf| == n
  {
    Ring(Zeros(n), 0)
  }

  /** Stores one sample at the cursor and advances it, wrapping to the start
      when it reaches the end of the buffer. */
  function Write(r: Ring, s: uint32): (r': Ring)
    requires r.Valid()
    ensures r'.Valid() && |r'.buf| == |r.buf|
    ensures r'.buf[r.cursor] == s
    ensures forall i :: 0 <= i < |r.buf| && i != r.cursor ==> r'.buf[i] == r.buf[i]
    ensures r'.cursor == (r.cursor + 1) % |r.buf|
  {
    var next := if r.cursor + 1 == |r.buf| then 0 else r.cursor + 1;
    Ring(r.buf[r.cursor := s], next)
  }

  /** The buffer read in chronological order from slot `first`:
      `[first, n)` followed by `[0, first)`. */
  function Linearize(buf: seq<uint32>, first: nat): (l: seq<uint32>)
    requires first < |buf|
    ensures |l| == |buf|
    ensures forall k :: 0 <= k < |buf| - first ==> l[k] == buf[first + k]
    ensures forall k :: |buf| - first <= k < |buf| ==> l[k] == buf[first + k - |buf|]
  {
    buf[first..] + buf[..first]
  }

  /** What the ring currently holds, oldest sample first. */
  function Window(r: Ring): seq<uint32>
    requires r.Valid()
  {
    Linearize(r.buf, r.cursor)
  }

  /** Writing one sample drops the oldest and appends the new one: the ring
      is a sliding window of the last `n` samples. */
  lemma WriteSlides(r: Ring, s: uint32)
    requires r.Valid()
    ensures Window(Write(r, s)) == Window(r)[1..] + [s]
  {
    var n, c := |r.buf|, r.cursor;
    var r' := Write(r, s);
    if c + 1 == n {
      assert r'.buf == r.buf[..c] + [s];
      assert Window(r) == [r.buf[c]] + r.buf[..c];
    } else {
      assert r'.buf[c + 1..] == r.buf[c + 1..];
      assert r'.buf[..c + 1] == r.buf[..c] + [s];
      assert Window(r) == [r.buf[c]] + r.buf[c + 1..] + r.buf[..c];
    }
  }

  /** The ring after writing `h` in order. */
  function Fill(r: Ring, h: seq<uint32>): (r': Ring)
    requires r.Valid()
    ensures r'.Valid() && |r'.buf| == |r.buf|
  {
    if h == [] then r else Write(Fill(r, h[..|h| - 1]), h[|h| - 1])
  }

  /** Writing `s` and then `h` is writing `[s] + h`. */
  lemma {:induction false} FillCons(r: Ring, s: uint32, h: seq<uint32>)
    requires r.Valid()
    ensures Fill(r, [s] + h) == Fill(Write(r, s), h)
  {
    if h == [] {
      assert Fill(r, [s]) == Write(Fill(r, []), s);
    } else {
      FillCons(r, s, h[..|h| - 1]);
      assert ([s] + h)[..|[s] + h| - 1] == [s] + h[..|h| - 1];
    }
  }

  /** After writing `h` the ring holds the last `n` entries of its old
      contents followed by `h`. */
  lemma {:induction false} FillSlides(r: Ring, h: seq<uint32>)
    requires r.Valid()
    ensures Window(Fill(r, h)) == (Window(r) + h)[|h|..]
  {
    if h != [] {
      var init, s := h[..|h| - 1], h[|h| - 1];
      FillSlides(r, init);
      WriteSlides(Fill(r, init), s);
      var w := Window(r);
      assert h == init + [s];
      assert (w + init)[|init|..][1..] == (w + init)[|h|..];
      assert (w + init)[|h|..] + [s] == (w + h)[|h|..];
    }
  }

  /** After writing `h` the cursor has moved `|h|` slots, modulo `n`. */
  lemma {:induction false} FillCursor(r: Ring, h: seq<uint32>)
    requires r.Valid()
    ensures Fill(r, h).cursor == (r.cursor + |h|) % |r.buf|
  {
    if h != [] {
      var init := h[..|h| - 1];
      FillCursor(r, init);
      Arith.ModSucc(r.cursor + |init|, |r.buf|);
    }
  }

  /** A capture into a fresh buffer: the cursor ends at `|h| mod n`, the
      linearized buffer is zero padding followed by everything written when
      fewer than `n` samples were written, and exactly the last `n` samples
      otherwise. */
  lemma FillFresh(n: nat, h: seq<uint32>)
    requires n > 0
    ensures Fill(Fresh(n), h).cursor == |h| % n
    ensures |h| < n ==> Window(Fill(Fresh(n), h)) == Zeros(n - |h|) + h
    ensures |h| >= n ==> Window(Fill(Fresh(n), h)) == h[|h| - n..]
  {
    var r := Fresh(n);
    FillSlides(r, h);
    FillCursor(r, h);
    PaddedSuffix(n, h);
    assert Window(Fill(r, h)) == (Zeros(n) + h)[|h|..];
  }

  lemma PaddedSuffix(n: nat, h: seq<uint32>)
    requires n > 0
    ensures Window(Fresh(n)) == Zeros(n)
    ensures |h| < n ==> (Zeros(n) + h)[|h|..] == Zeros(n - |h|) + h
    ensures |h| >= n ==> (Zeros(n) + h)[|h|..] == h[|h| - n..]
  {
    if |h| < n {
      assert (Zeros(n) + h)[|h|..] == Zeros(n - |h|) + h;
    } else {
      assert (Zeros(n) + h)[|h|..] == h[|h| - n..];
    }
  }
}

=== FILE: viewer.dfy ===
/**
  The viewer's state around a capture (Panalyzer.c `prepopulate_data` and
  the part of `do_run` after the device or trace file has been read): the
  header it keeps, the one it compares against to decide whether to reset
  the zoom, the encoded records, the two views and the two cursors.
 */
module Viewer {
  import opened Layout
  import opened Encoder
  import Ring
  import Device

  /** The sample range a view shows (`first_sample`, `last_sample`). */
  datatype View = View(first: int, last: int)

  datatype State = State(
    ctl: PanCtl,
    prev: PanCtl,
    records: seq<Record>,
    preview: View,
    main: View,
    cursor1: int,
    cursor2: int)

  /** The viewer captures the default channels. */
  const VIEW_CHANNELS: seq<nat> := DEF_CHANNELS

  function ViewMask(): bv32 {
    ChannelMask(VIEW_CHANNELS)
  }

  /** Both views show the whole buffer of `n` samples and the cursors sit
      one fiftieth of the buffer in from either end. */
  function ResetView(s: State, n: nat): (s': State)
    ensures s'.preview == s'.main == View(0, n)
    ensures 0 <= s'.cursor1 <= s'.cursor2 <= n && s'.cursor1 + s'.cursor2 == n
    ensures 50 * s'.cursor1 <= n < 50 * (s'.cursor1 + 1)
    ensures s'.ctl == s.ctl && s'.prev == s.prev && s'.records == s.records
  {
    s.(preview := View(0, n), main := View(0, n), cursor1 := n / 50, cursor2 := n - n / 50)
  }

  /** The state before any capture, and after any failed one: the default
      header twice, a single all-low run over the default buffer, and the
      views reset to it. */
  function Prepopulate(): (s: State)
    ensures s.ctl == DEF_PANCTL && s.prev == DEF_PANCTL
    ensures s.records == [Record(0, 0), Record(DEF_PANCTL.numSamples, 0)]
    ensures s.main == View(0, 10000) && s.cursor1 == 200 && s.cursor2 == 9800
  {
    var n := DEF_PANCTL.numSamples;
    ResetView(State(DEF_PANCTL, DEF_PANCTL, [Record(0, 0), Record(n, 0)],
                    View(0, 0), View(0, 0), 0, 0), n)
  }

  /** The default records are exactly what the encoder makes of a buffer of
      10000 low samples. */
  lemma {:induction false} PrepopulateIsFlatCapture()
    ensures Prepopulate().records == Encoding(Run(0, 10000))
    ensures Canonical(Prepopulate().records)
    ensures Expand(Prepopulate().records) == Run(0, 10000)
  {
    var L := Run(0, 10000);
    assert L == [0] + Run(0, 9999);
    EdgesRun([0], 0, 9999);
    EncodingCanonical(L);
    ExpandEncoding(L);
  }

  /** The file as the viewer reads it: a header, accepted when it is complete
      and carries the magic number, then the samples. */
  predicate Accepted(file: seq<byte>) {
    |file| >= HEADER_BYTES && ParseImage(file[..HEADER_BYTES]).magic == PAN_MAGIC
  }

  function Header(file: seq<byte>): PanCtl
    requires |file| >= HEADER_BYTES
  {
    ParseImage(file[..HEADER_BYTES])
  }

  /** The words behind an accepted header, as bit-vectors. */
  function Trace(file: seq<byte>): (t: seq<bv32>)
    requires |file| >= HEADER_BYTES && |file| >= HEADER_BYTES + 4 * Header(file).numSamples
    ensures |t| == Header(file).numSamples
  {
    var n := Header(file).numSamples;
    var bs := file[HEADER_BYTES..HEADER_BYTES + 4 * n];
    assert |bs| % 4 == 0 && |bs| / 4 == n;
    AsBits(BytesWords(bs))
  }

  function AsBits(ws: seq<uint32>): (t: seq<bv32>)
    ensures |t| == |ws|
  {
    seq(|ws|, i requires 0 <= i < |ws| => ws[i] as bv32)
  }

  /** What the viewer does with a capture file. A short or wrongly tagged
      header resets everything to the defaults. Otherwise the header
      becomes current and the reference for the next capture, the zoom and
      cursors are reset when the buffer size changed, and the samples are
      encoded under the viewer's channel mask. */
  function Receive(s: State, file: seq<byte>): (s': State)
    requires Accepted(file) ==>
      Header(file).numSamples >= 1 && |file| >= HEADER_BYTES + 4 * Header(file).numSamples
    ensures !Accepted(file) ==> s' == Prepopulate()
    ensures Accepted(file) ==>
      && s'.ctl == Header(file) && s'.prev == Header(file)
      && Canonical(s'.records)
      && Expand(s'.records) == Masked(Trace(file), ViewMask())
    ensures Accepted(file) && Header(file).numSamples != s.prev.numSamples ==>
      s'.main == s'.preview == View(0, Header(file).numSamples)
    ensures Accepted(file) && Header(file).numSamples == s.prev.numSamples ==>
      s'.main == s.main && s'.preview == s.preview
      && s'.cursor1 == s.cursor1 && s'.cursor2 == s.cursor2
  {
    if !Accepted(file) then Prepopulate()
    else
      var ctl := Header(file);
      var L := Masked(Trace(file), ViewMask());
      EncodingCanonical(L);
      ExpandEncoding(L);
      var s1 := if ctl.numSamples != s.prev.numSamples then ResetView(s, ctl.numSamples) else s;
      s1.(ctl := ctl, prev := ctl, records := Encoding(L))
  }

  /** The device file after a capture is accepted by the viewer; its header
      is the driver's and its samples are the ring buffer in chronological
      order. */
  lemma {:induction false} DeviceFileParts(dev: Device.Device)
    requires dev.Servable() && dev.ctl.magic == PAN_MAGIC
    ensures var file := Device.FileImage(dev);
      && Accepted(file) && Header(file) == dev.ctl
      && Trace(file) == AsBits(Ring.Linearize(dev.buffer.words, dev.firstDataIndex))
  {
    var file := Device.FileImage(dev);
    var lin := Ring.Linearize(dev.buffer.words, dev.firstDataIndex);
    ImageParts(HeaderImage(dev.ctl), WordBytes(lin));
    HeaderImageRoundTrip(dev.ctl);
    WordBytesInverse(lin);
  }

  lemma {:induction false} ImageParts(h: seq<byte>, w: seq<byte>)
    ensures (h + w)[..|h|] == h && (h + w)[|h|..|h| + |w|] == w
  {
  }

  /** Reading the whole device file after a capture and handing it to the
      viewer makes the records it draws expand to the driver's buffer, in
      chronological order, under the viewer's mask. */
  lemma {:induction false} ReceiveDeviceFile(s: State, dev: Device.Device)
    requires dev.Servable() && dev.ctl.magic == PAN_MAGIC
    ensures Accepted(Device.FileImage(dev)) && Header(Device.FileImage(dev)) == dev.ctl
    ensures Receive(s, Device.FileImage(dev)).ctl == dev.ctl
    ensures Expand(Receive(s, Device.FileImage(dev)).records)
         == Masked(AsBits(Ring.Linearize(dev.buffer.words, dev.firstDataIndex)), ViewMask())
  {
    DeviceFileParts(dev);
  }
}
